=== FILE: README.md ===
# Delivery-partner dispatch, modelled in Dafny

This project models the order-dispatch lifecycle of the delivery-partner
backend: how a partner claims an order that is ready for pickup, picks it up
and delivers it, how each step is recorded on the order, and how the
partner's pay, counters, availability and position change along the way.

There are two implementations of the lifecycle in the backend, and both are
modelled:

- the route handlers (`routes/orders.js`) on the delivery-order record
  (`models/DeliveryOrder.js`), with lower-case statuses, a timeline, and
  integer pay;
- the controller (`controllers/orderController.js`) on the ordering
  system's own `orders` collection, with upper-case statuses and a flat pay
  estimate in real arithmetic.

Around them sit the partner record (`models/DeliveryPartner.js`), the
partner dashboard handlers (`routes/partner.js`), the partner-status
controller (`controllers/partnerController.js`) and the location handlers
(`routes/location.js`).

Every handler is a pure function. It takes the stored documents, the
authenticated partner, the request and the clock reading `now`, and returns
a `Reply`:

- `Ok` carries the committed state;
- `NotFound` is a 404;
- `Rejected(reason)` is a refusal.

Neither `NotFound` nor `Rejected` carries any state, so a refusal writes
nothing. The store of orders is a map keyed by order id; queries take the
collection as a sequence.

Modules, one per source file, plus two shared ones:

| module | file | models |
|---|---|---|
| `Common` | common.dfy | `Option`, `Reply`, `Math.round`, `Math.ceil` of a quotient, `slice` |
| `Sorting` | sorting.dfy | filtering, a stable sort by a numeric key, and find-sort-limit |
| `DeliveryOrders` | delivery_order.dfy | models/DeliveryOrder.js |
| `DeliveryPartners` | delivery_partner.dfy | models/DeliveryPartner.js |
| `OrderRoutes` | order_routes.dfy | routes/orders.js |
| `OrderController` | order_controller.dfy | controllers/orderController.js |
| `PartnerRoutes` | partner_routes.dfy | routes/partner.js |
| `PartnerController` | partner_controller.dfy | controllers/partnerController.js |
| `LocationRoutes` | location_routes.dfy | routes/location.js |

Notifications are modelled in two ways, because the two implementations
handle them differently:

- The route handlers send their socket events inside their own `try`.
  `Publish` cuts the event list at the emission that throws, and nothing
  else changes.
- The controllers look up the socket server after saving, outside any inner
  error handling. A missing server gives a 500 after the writes have been
  committed. `acknowledged` records whether the caller was told of success.

## Model

| member | source | states |
|---|---|---|
| DeliveryOrders.NewOrder | Backend/models/DeliveryOrder.js:100-128 | a new order is pending, not assigned, has no partner, no timeline, no pickup or delivery time and zero pay; it is consistent and not claimable |
| DeliveryOrders.AddToTimeline | Backend/models/DeliveryOrder.js:254-262 | appends exactly one entry (status, actor, notes, time) and keeps every earlier entry and every other field |
| DeliveryOrders.UpdateStatus | Backend/models/DeliveryOrder.js:265-283 | total over all statuses: sets the status, appends exactly one matching entry, maps assigned, picked_up, out_for_delivery and delivered to their delivery sub-status and leaves it for any other status, and stamps pickup time only on picked_up and delivery time only on delivered |
| DeliveryOrders.UpdateStatusIsUnguarded | Backend/models/DeliveryOrder.js:265-283 | the update checks no transition: a fresh order can be moved straight to delivered, which breaks the lifecycle invariant the handlers keep |
| DeliveryOrders.ApplyStepsTimeline | Backend/models/DeliveryOrder.js:254-283 | the timeline is append-only: any run of updates under a clock that does not go backwards keeps the old entries, adds one entry per update in order, keeps timestamps non-decreasing, and leaves the last status written |
| DeliveryOrders.DeliveryDuration | Backend/models/DeliveryOrder.js:238-243 | null unless both times are set; otherwise the elapsed time rounded to whole minutes (within half a minute of it), and not negative when delivery is not before pickup |
| DeliveryOrders.FindAvailableOrders | Backend/models/DeliveryOrder.js:287-303 | exactly the ready-for-pickup, unclaimed orders the geospatial filter keeps, taken from the input, oldest first |
| DeliveryOrders.FindByDeliveryPartner | Backend/models/DeliveryOrder.js:307-317 | exactly the partner's orders (with the given status, when one is given), taken from the input, newest first |
| DeliveryPartners.NewPartner | Backend/models/DeliveryPartner.js:55-109 | a new partner is available, active, unverified, located at [0, 0], with zero earnings, zero counters and mean rating 0 |
| DeliveryPartners.AddEarnings | Backend/models/DeliveryPartner.js:187-193 | each of the four earnings buckets grows by exactly the amount and nothing else changes |
| DeliveryPartners.UpdateStats | Backend/models/DeliveryPartner.js:196-210 | one more delivery always; a completed one also counts as completed and adds a non-zero rating to the sum and the count; a cancelled one counts as cancelled; nothing else changes |
| DeliveryPartners.AverageRating | Backend/models/DeliveryPartner.js:141-144 | 0 with no ratings, otherwise the value that times the count gives the rating sum |
| DeliveryPartners.UpdateLocation | Backend/models/DeliveryPartner.js:170-177 | stores the pair longitude first, latitude second, refreshes the activity time, and changes nothing else |
| DeliveryPartners.UpdateAvailability | Backend/models/DeliveryPartner.js:180-184 | sets availability to the given flag, refreshes the activity time, and changes nothing else |
| DeliveryPartners.FindNearby | Backend/models/DeliveryPartner.js:213-227 | exactly the available, active, verified partners the geospatial filter keeps, taken from the input |
| DeliveryPartners.RatingSumOutgrowsSchemaCap | Backend/models/DeliveryPartner.js:107 | two completed deliveries rated 3 leave a rating sum of 6, which the schema's maximum of 5 refuses |
| DeliveryPartners.UpdateStatsKeepsRatingInScale | Backend/models/DeliveryPartner.js:196-210 | with ratings between 1 and 5 the sum stays within five times the count, and the mean stays between 0 and 5 |
| OrderRoutes.CalculateDeliveryEarnings | Backend/routes/orders.js:454-473 | base fee 30 and tip 0; time bonus 10 exactly when the duration is non-zero and under 30 minutes; distance bonus is both legs (a missing or zero leg counted as 2000 m) at 8 per km rounded to the nearest unit; total is the sum, at least 30 |
| OrderRoutes.EarningsWithUnmeasuredLegs | Backend/routes/orders.js:457-469 | with neither leg measured and no quick bonus the pay is 30 + 32 = 62 |
| OrderRoutes.DistanceBonusMonotone | Backend/routes/orders.js:460-462 | longer legs never earn a smaller distance bonus |
| OrderRoutes.Accept | Backend/routes/orders.js:156-199 | unverified is refused, then offline is refused; otherwise it succeeds exactly when the order is ready for pickup and unclaimed (else 404); success records the partner, moves the order to assigned with one timeline entry, counts one more delivery, and changes no other order or partner field |
| OrderRoutes.AtMostOneClaim | Backend/routes/orders.js:177-193 | whatever the queue of bidders, at most one accept of an order succeeds, and none once the order is no longer claimable |
| OrderRoutes.SecondAcceptFails | Backend/routes/orders.js:177-193 | after a successful accept, any later accept of the same order fails, with a 404 for a verified, available bidder |
| OrderRoutes.Pickup | Backend/routes/orders.js:255-277 | succeeds exactly for the owner of an assigned order (else 404); the order becomes picked_up with its pickup time and one timeline entry; nothing else changes |
| OrderRoutes.Deliver | Backend/routes/orders.js:322-369 | a note, proof of delivery or customer signature that is present but not a string (`null` included), or a note over 500 characters, is refused; otherwise it succeeds exactly for the owner of a picked-up order (else 404); the order is the picked-up order moved to delivered through the status update, with the note (or the default) and its legs and pickup time kept; its pay breakdown is computed from the delivered order and stored on it, all four earnings buckets grow by the total, and the completed count grows by one |
| OrderRoutes.GetOrder | Backend/routes/orders.js:415-434 | an order is returned only to the partner it is assigned to |
| OrderRoutes.AcceptKeepsStoreConsistent | Backend/routes/orders.js:191-193 | an accept keeps every order consistent: partner recorded exactly from the claim on, sub-status matching the status, stamps present, timeline ordered |
| OrderRoutes.PickupKeepsStoreConsistent | Backend/routes/orders.js:276-277 | a pickup keeps every order consistent |
| OrderRoutes.DeliverKeepsStoreConsistent | Backend/routes/orders.js:358-369 | a delivery keeps every order consistent |
| OrderRoutes.HappyPath | Backend/routes/orders.js:156-369 | accept, pickup and deliver in turn all succeed for a verified, available partner and a claimable order; the order ends delivered, owned, with three more entries and both times stamped, and the partner gains one delivery, one completion and the order's pay |
| OrderRoutes.NotificationFailureIsHarmless | Backend/routes/orders.js:205-227 | a throwing emission changes neither the outcome nor the committed order nor the partner, only how many events went out |
| OrderRoutes.ListAvailable | Backend/routes/orders.js:14-71 | unverified is refused, then an out-of-range latitude, longitude, radius or limit; otherwise at most `limit` (default 20) claimable orders near the search point within the radius (default 10000), oldest first, each taken from the input no more often than it occurs there, and a match is left out only when the list is full of orders no newer than it |
| OrderRoutes.SearchCenter | Backend/routes/orders.js:42-65 | the query's point, longitude first, when both coordinates are given, else the partner's stored point |
| OrderRoutes.MyOrders | Backend/routes/orders.js:94-137 | an unknown status, a limit outside 1 to 100 or a page below 1 is refused; otherwise the page is the partner's orders (newest first) from position (page - 1) * limit on, with the total count and a page count that is the ceiling of count / limit |
| OrderRoutes.Paginate | Backend/routes/orders.js:121-137 | the page holds at most `limit` items, each the element at its offset from (page - 1) * limit, cut short only by the end of the list; the page count holds everything without an empty page; the page is non-empty exactly when it is within the count |
| OrderController.ParseStatusName | Backend/controllers/orderController.js:446-453 | every status is accepted under its own name, and a name is accepted exactly when it is one of the seven |
| OrderController.Estimate | Backend/controllers/orderController.js:197-200 | the base is 3, the time bonus 1, the distance bonus half the distance, and the total is the sum of the three, at least 4 |
| OrderController.EstimateMonotone | Backend/controllers/orderController.js:197-200 | each extra kilometre adds exactly 0.5 to the total |
| OrderController.GetAvailableOrders | Backend/controllers/orderController.js:67-121 | empty for an offline partner; otherwise the 20 newest open orders, each priced from its trip length from the partner's point, as a permutation sorted by trip length, closest first |
| OrderController.AcceptOrder | Backend/controllers/orderController.js:146-219 | refuses in this order: offline, missing (404), not ready for pickup, already assigned; success records the partner, its point, the trip length and the estimate, moves to WITH_DELIVERY_PARTNER with a promised time 30 minutes on, counts one more delivery, and touches no other order |
| OrderController.MarkOrderPickedUp | Backend/controllers/orderController.js:257-286 | 404 unless the order is the partner's, refused unless it is WITH_DELIVERY_PARTNER; success only stamps the pickup time and keeps the status |
| OrderController.MarkOrderDelivered | Backend/controllers/orderController.js:317-356 | 404 unless the order is the partner's, refused unless it is WITH_DELIVERY_PARTNER; success moves it to DELIVERED with both delivery times, credits the stored total to all four buckets and counts one more completion |
| OrderController.GetMyOrders | Backend/controllers/orderController.js:392-398 | the partner's 50 newest orders, newest first, each taken from the input no more often than it occurs there |
| OrderController.UpdateOrderStatus | Backend/controllers/orderController.js:441-466 | an unknown name is refused before the lookup; otherwise any existing order takes the named status whatever its current one, and nothing else changes but the update time |
| OrderController.PartnerHandlersKeepTracked | Backend/controllers/orderController.js:197-354 | claim, pickup and delivery keep every order that is with a partner or delivered carrying a partner and an estimate whose total is the sum of its parts |
| OrderController.AdminUpdateBreaksTracked | Backend/controllers/orderController.js:446-466 | the unchecked status update can put an unclaimed order into WITH_DELIVERY_PARTNER |
| OrderController.SecondAcceptRefused | Backend/controllers/orderController.js:168-182 | after a claim, any later claim of the order is refused as not ready for pickup, or as offline |
| OrderController.ResetDoesNotReopen | Backend/controllers/orderController.js:176-182 | an administrator moving a claimed order back to READY_FOR_PICKUP does not reopen it: a new claim is refused as already assigned |
| OrderController.PickupIsOptional | Backend/controllers/orderController.js:274-286 | pickup can be repeated and delivery does not need it, while a second delivery is refused |
| OrderController.FailedReplyStillCommits | Backend/controllers/orderController.js:215-228 | with no socket server the caller gets a 500 but the order is claimed, so a retry is refused |
| PartnerRoutes.ActiveOrderQueryMeaning | Backend/routes/partner.js:340-343 | a filter on `orderStatus` finds exactly the partner's assigned or picked-up orders; a filter on `status` finds nothing |
| PartnerRoutes.ToggleAvailabilityAsWritten | Backend/routes/partner.js:340-353 | as written, the toggle always succeeds: availability flips, the activity time becomes `now`, and nothing else changes |
| PartnerRoutes.ToggleAvailability | Backend/routes/partner.js:340-353 | going online always succeeds; going offline is refused exactly when the partner holds an assigned or picked-up order; success flips availability and changes nothing but the activity time |
| PartnerRoutes.OfflineWithActiveOrder | Backend/routes/partner.js:340-350 | a partner carrying an order goes offline under the written query and is refused under the intended one |
| PartnerRoutes.ToggleTwiceRestores | Backend/routes/partner.js:352-353 | without an active order, toggling twice restores the partner apart from the activity time |
| PartnerRoutes.UpdateProfile | Backend/routes/partner.js:53-93 | a request failing validation is refused; otherwise the save is refused exactly when the schema refuses the result; on success each supplied field is set (name and phone trimmed, vehicle number trimmed and upper-cased), each field not supplied keeps its value, and nothing but name, phone, vehicle type and vehicle number changes |
| PartnerRoutes.ValidatorAdmitsWhatSchemaRefuses | Backend/routes/partner.js:64-67 | vehicle type `bike` and a name that is two characters only before trimming pass validation and then fail on save |
| PartnerRoutes.EmptyProfileRequestIsNoOp | Backend/routes/partner.js:87-93 | a request supplying nothing saves the partner unchanged |
| PartnerRoutes.Trim | Backend/models/DeliveryPartner.js:8 | the result is a slice of the input with only white space before and after it, and is empty or starts and ends with a non-space |
| PartnerRoutes.TrimIdempotent | Backend/models/DeliveryPartner.js:8 | trimming twice is trimming once, and a string without white space at its ends is unchanged |
| PartnerRoutes.EarningsSummary | Backend/routes/partner.js:168-171 | the fee total with missing fees as 0, the order count, and a mean fee that times the count gives the total (0 for no orders) |
| PartnerRoutes.TotalFeesBounds | Backend/routes/partner.js:169 | with no negative fee the total is not negative and at least every single fee |
| PartnerRoutes.AddToDay | Backend/routes/partner.js:175-182 | one order adds its fee and one count to its own date's bar and to no other date, creating the bar when new, and never creates a second bar for a date |
| PartnerRoutes.DailyBreakdownMatchesSummary | Backend/routes/partner.js:173-188 | one bar per date; each bar holds exactly its date's order count and fee total; summed over all bars they equal the summary's order count and total |
| PartnerRoutes.CompletionRate | Backend/routes/partner.js:290-292 | in (0, 100]; exactly 100 when there are no deliveries or no cancellations; otherwise the delivered share of delivered plus cancelled, in percent |
| PartnerRoutes.CountStatus | Backend/routes/partner.js:290 | the number of orders in the list with the given status, that is, the length of the list filtered on that status |
| PartnerRoutes.GroupCount | Backend/routes/partner.js:278-289 | the count a `$group` on a path reports under a key: the orders whose value at that path is the key; on any path other than `orderStatus` (the only status path an order has) it is 0 |
| PartnerRoutes.GroupOnOrderStatus | Backend/routes/partner.js:278-289 | grouping on `orderStatus` reports, under each status's name, exactly the number of orders with that status |
| PartnerRoutes.WeeklyCompletionRateAsWritten | Backend/routes/partner.js:270-292 | as written, the week's orders are grouped on `status`, so the rate is 100 for every week |
| PartnerRoutes.WeeklyCompletionRate | Backend/routes/partner.js:270-292 | grouped on `orderStatus`, the rate is the completion rate of the week's delivered and cancelled counts: the delivered share in percent, in (0, 100], and 100 exactly when none of the week's orders was delivered or none cancelled |
| PartnerRoutes.WeeklyRateAsWrittenHidesCancellations | Backend/routes/partner.js:278-292 | a week with deliveries and cancellations reports 100 as written and less than 100 when grouped on `orderStatus`; three deliveries and one cancellation give 75 |
| PartnerRoutes.CompletionRateMonotone | Backend/routes/partner.js:290-292 | one more delivery never lowers the rate and one more cancellation never raises it |
| PartnerController.ToggleStatus | Backend/controllers/partnerController.js:7-31 | a status other than online or offline is refused; otherwise availability and the working flag both become (status is online), the activity time is refreshed, and nothing else changes; no active-order check |
| PartnerController.ToggleStatusIdempotent | Backend/controllers/partnerController.js:21-29 | setting the same status twice gives the same flags as once |
| PartnerController.UpdateLocation | Backend/controllers/partnerController.js:71-90 | a missing or zero latitude or longitude is refused; any other pair is stored longitude first |
| PartnerController.GetEarnings | Backend/controllers/partnerController.js:151-169 | the four buckets one to one under their short names, and the counters as stored |
| PartnerController.CreditShowsInEveryBucket | Backend/controllers/partnerController.js:156-161 | a credited amount appears in each of the four reported figures |
| PartnerController.GetStats | Backend/controllers/partnerController.js:184-195 | the counters as stored and the mean rating, 0 before the first rating |
| PartnerController.ReportedMeanStaysOnScale | Backend/controllers/partnerController.js:188-195 | a completed delivery rated 1 to 5 keeps the reported mean between 0 and 5 when earlier ratings were on that scale |
| LocationRoutes.PostLocation | Backend/routes/location.js:11-48 | a report is refused unless latitude and longitude are present and in range and heading, speed and accuracy (when present) are in range; a valid one is stored longitude first |
| LocationRoutes.GetLocation | Backend/routes/location.js:94-118 | "location not set" when there is no array or every coordinate is zero; otherwise longitude from position 0 and latitude from position 1 |
| LocationRoutes.PostThenGet | Backend/routes/location.js:48-107 | after a valid report other than (0, 0), reading gives back the same latitude and longitude and the report's time; a report of (0, 0) reads back as not set |
| LocationRoutes.NewPartnerHasNoLocation | Backend/routes/location.js:100-105 | a partner that has never reported a position has no location to read |
| LocationRoutes.PostAvailability | Backend/routes/location.js:133-155 | a missing flag is refused; a given one becomes the availability, with no active-order check |
| LocationRoutes.OnlyTheCorrectedToggleChecksActiveOrders | Backend/routes/location.js:151-155 | a partner carrying an order is taken offline by this handler, by the status controller and by the toggle route as written; only the toggle with its query on `orderStatus` refuses |
| LocationRoutes.PositionHandlersDiffer | Backend/routes/location.js:14-19 | the two position handlers store an accepted point identically, but the controller refuses a zero coordinate this route accepts and accepts an out-of-range one it refuses |
| Sorting.TopBy | Backend/routes/orders.js:67-71 | at most `limit` kept elements of the input, a sub-multiset of it, sorted by key, and a kept element is left out only when the result is full of elements sorting no later than it |

## Left out

- Authentication: token checks, password hashing and the login routes. The
  `requireVerified` check is kept as the partner's `isVerified` flag.
- The socket transport. Events are an abstract list (route handlers) or a
  readiness flag (controllers).
- Server start-up and the HTTP smoke script.
- The great-circle distance. The controller takes the trip length as an
  opaque non-negative function.
- The geospatial `$near` filter of the store. It is an opaque predicate on
  (point, radius, order). The store's own distance ordering is not
  modelled: the explicit sort on `createdAt` decides the order.
- `populate` of restaurant and customer documents, and the transaction
  session of the accept route. The model is sequential, so the
  find-then-save race between two controllers' accepts is not modelled.
- Reachability of the controller handlers. No modelled file imports
  `controllers/orderController.js`, so no route of this server reaches the
  `OrderController` handlers; they are modelled as the file defines them.
- Calendar windows (`setHours`, `setDate`) of the earnings and statistics
  dashboards. The dashboards' arithmetic is modelled over a given list of
  orders. Those two routes are also registered after the controller routes
  for the same paths, so they are never reached.
- The dashboards' `lifetimeEarnings`, `lifetimeOrders`, `recentOrders` and
  `activeOrder` fields, and the separate "today" counts, which repeat the
  summary arithmetic. The statistics route's `activeOrder` lookup also
  filters on `status`, the same path as the toggle's query, and so does the
  earnings route's order query (`routes/partner.js` line 164).
- `toFixed` formatting, the `Restaurant XXXX` and `Customer XXXX` display
  names, and the profile and test routes, which only echo stored data.
- Floating point. Money and distances are exact rationals, and
  `Math.round` is exact rounding half up.
- String-to-number coercion of query and body fields. Inputs arrive
  already parsed, and a value that fails to parse counts as invalid.
- The `isMobilePhone` check. It is an opaque predicate parameter.
- Schema checks on save other than the profile fields: email, password and
  the other required fields are assumed valid.
- The `totalDuration` virtual, payment fields, items, addresses and
  ratings on the order, which the dispatch lifecycle does not read.
- OrderController.GetAvailableOrders: sorts by the exact trip length. The
  source sorts by the length rounded to two decimals, so orders whose
  lengths round equal may come out in a different order.
- PartnerRoutes.UpdateProfile: upper-casing is modelled for ASCII letters
  only; the other letters `toUpperCase` maps are left as they are.
- OrderController.AcceptOrder, OrderController.UpdateOrderStatus,
  OrderController.MarkOrderPickedUp, OrderController.MarkOrderDelivered: an
  order id that is not a well-formed object id is answered NotFound. In the
  source the lookup throws a cast error there and the handler answers 500:
  `findById` in `controllers/orderController.js` lines 160 and 244-246, and
  455 and 484-486; `findOne({ _id })` in lines 262-265 and 304-306, and
  322-325 and 379-381. Ids are modelled as plain strings, so there is no
  malformed id.
- An order whose `deliveryPartnerId` is stored as an explicit `null`. The
  controller lists only orders where the field does not exist
  (`controllers/orderController.js` line 88) but accepts by truthiness
  (line 177), so such an order could be accepted without ever being listed.
  The model's `Option` has a single `None` for both, and the schema sets no
  default, so the field is absent on every order the backend creates.
- DeliveryOrders.FindAvailableOrders: the model has no limit and no
  distance ordering, like the source's static method. The handler that
  applies a limit is OrderRoutes.ListAvailable.

## Findings

| source | as written | input that shows it | evidently intended | confidence | as-written member | corrected member |
|---|---|---|---|---|---|---|
| Backend/routes/partner.js:340-343 | the toggle's active-order query filters on `status`, a path the order schema does not have (the field is `orderStatus`) | an available partner holding an `assigned` order calls the toggle: the partner goes offline | refuse to go offline while holding an assigned or picked-up order, as the 400 message says | not executed; medium: the outcome depends on the Mongoose version. With `strictQuery` off (the default from version 7) the filter reaches the database and matches no order, which is what the as-written member models. With `strictQuery` following `strict` (version 6) the unknown path is dropped, the filter becomes "any order of this partner", and every partner with any order at all, delivered ones included, is refused; that reading is not modelled | PartnerRoutes.ToggleAvailabilityAsWritten | PartnerRoutes.ToggleAvailability |
| Backend/models/DeliveryPartner.js:107 | `stats.rating` has a schema maximum of 5, but `updateStats` (line 202) adds every rating into it | two completed deliveries rated 3: the sum is 6, and the `save` at the end of `updateStats` itself (line 209) is refused | the stored sum is bounded by five times the rating count, so the mean stays on the 1-to-5 scale | not executed; high for the method as written; `updateStats` has no caller in the modelled files, so no route reaches it | DeliveryPartners.RatingSumOutgrowsSchemaCap | DeliveryPartners.UpdateStatsKeepsRatingInScale |
| Backend/routes/partner.js:278 | the weekly statistics group the week's orders on `$status`, a field the order schema does not have, so every order lands in the `null` group and no count is found under `delivered` or `cancelled` | a week of three delivered orders and one cancelled order: the completion rate reported is 100 | group on `$orderStatus`, which gives 75 for that week | not executed; high: an aggregation pipeline is passed to the database without schema casting, and a missing field groups as `null` | PartnerRoutes.WeeklyCompletionRateAsWritten | PartnerRoutes.WeeklyCompletionRate |

=== FILE: common.dfy ===
/**
 The vocabulary shared by every part of the dispatch model: optional values,
 handler replies, and the two pieces of JavaScript arithmetic the handlers rely
 on (`Math.round` and `Math.ceil` of a quotient).
 */
module Common {

  /** A `Date`, as milliseconds since the epoch. */
  type Millis = int

  /** The identifier of a delivery-partner document. */
  type PartnerId = nat

  /** A value that may be absent (`null` / `undefined` in the source). */
  datatype Option<+T> = None | Some(value: T) {
    function GetOr(default: T): T {
      match this
      case Some(v) => v
      case None => default
    }
  }

  /** Why a handler refused a request without changing any record. */
  datatype Reason =
    | Unverified          // requireVerified middleware: 403
    | Unavailable         // the partner is offline: 400
    | Invalid             // a request field failed validation: 400
    | NotReadyForPickup   // controller accept: status is not READY_FOR_PICKUP
    | AlreadyAssigned     // controller accept: the order already has a partner
    | NotWithPartner      // controller pickup/deliver: status is not WITH_DELIVERY_PARTNER
    | BadStatus           // a status name outside the accepted list
    | ActiveOrder         // going offline while holding an active order
    | SaveFailed          // the document failed schema validation on save: 500

  /** What a handler answers: a success carrying the committed result, a 404,
      or a refusal. Refusals and 404s carry no state: nothing was written. */
  datatype Reply<+T> = Ok(value: T) | NotFound | Rejected(reason: Reason)

  /** JavaScript `Math.round` on an exact value: the nearest integer, halves
      rounding toward positive infinity. */
  function Round(x: real): (r: int)
    ensures x - 0.5 < r as real <= x + 0.5
  {
    (x + 0.5).Floor
  }

  /** `Math.ceil(a / b)` for a positive divisor. */
  function CeilDiv(a: nat, b: nat): (r: nat)
    requires b > 0
    ensures r * b >= a
    ensures r > 0 ==> (r - 1) * b < a
  {
    (a + b - 1) / b
  }

  /** `s.slice(0, n)`: at most the first `n` elements. */
  function Take<T>(s: seq<T>, n: nat): (r: seq<T>)
    ensures |r| == if n < |s| then n else |s|
    ensures forall i :: 0 <= i < |r| ==> r[i] == s[i]
  {
    if n < |s| then s[..n] else s
  }

  /** `s.slice(n)`: everything after the first `n` elements. */
  function Drop<T>(s: seq<T>, n: nat): (r: seq<T>)
    ensures |r| == if n < |s| then |s| - n else 0
    ensures forall i :: 0 <= i < |r| ==> r[i] == s[n + i]
  {
    if n < |s| then s[n..] else []
  }
}

=== FILE: delivery_order.dfy ===
/**
 The delivery-order record (models/DeliveryOrder.js): lifecycle statuses, the
 delivery sub-status derived from them, the append-only timeline, the
 unchecked status-update primitive, the delivery-duration virtual and the two
 finder queries.
 */
module DeliveryOrders {
  import opened Common
  import opened Sorting

  /** `orderStatus`, in lifecycle order, then the two side exits. */
  datatype OrderStatus =
    | Pending | Confirmed | Preparing | ReadyForPickup | Assigned
    | PickedUp | OutForDelivery | Delivered | Cancelled | Refunded

  /** The status's spelling in the collection and in queries. */
  function StatusName(s: OrderStatus): string {
    match s
    case Pending => "pending"
    case Confirmed => "confirmed"
    case Preparing => "preparing"
    case ReadyForPickup => "ready_for_pickup"
    case Assigned => "assigned"
    case PickedUp => "picked_up"
    case OutForDelivery => "out_for_delivery"
    case Delivered => "delivered"
    case Cancelled => "cancelled"
    case Refunded => "refunded"
  }

  /** `deliveryStatus`, the partner's physical progress. */
  datatype DeliveryStatus =
    | NotAssigned | Assigned | HeadingToRestaurant | AtRestaurant
    | PickedUp | HeadingToCustomer | Delivered

  /** `timeline[].updatedBy`. */
  datatype Actor = Customer | Restaurant | DeliveryPartner | System

  datatype TimelineEntry = TimelineEntry(status: OrderStatus, updatedBy: Actor, notes: string, timestamp: Millis)

  /** `deliveryEarnings`: the partner's pay for this order. */
  datatype Earnings = Earnings(baseFee: int, distanceBonus: int, timeBonus: int, tip: int, total: int)

  const NoEarnings := Earnings(0, 0, 0, 0, 0)

  /** The fields of a delivery order that the dispatch lifecycle reads or
      writes. Item lists, addresses, payment and rating fields are not part of
      this model. Distances are in meters. */
  datatype DeliveryOrder = DeliveryOrder(
    orderId: string,
    customerId: nat,
    restaurantId: nat,
    deliveryPartnerId: Option<PartnerId>,
    deliveryFee: Option<real>,
    orderStatus: OrderStatus,
    deliveryStatus: DeliveryStatus,
    timeline: seq<TimelineEntry>,
    deliveryEarnings: Earnings,
    distanceFromRestaurant: Option<real>,
    distanceToCustomer: Option<real>,
    actualPickupTime: Option<Millis>,
    actualDeliveryTime: Option<Millis>,
    createdAt: Millis,
    updatedAt: Millis)

  /** The statuses at or past the claim, up to and including delivery. */
  predicate Claimed(s: OrderStatus) {
    s == OrderStatus.Assigned || s == OrderStatus.PickedUp || s == OutForDelivery || s == OrderStatus.Delivered
  }

  /** The statuses before any partner may claim the order. */
  predicate BeforeClaim(s: OrderStatus) {
    s == Pending || s == Confirmed || s == Preparing || s == ReadyForPickup
  }

  /** The filter that the accept handler and every available-orders query share:
      ready for pickup and nobody has claimed it. */
  predicate Claimable(o: DeliveryOrder) {
    o.orderStatus == ReadyForPickup && o.deliveryPartnerId.None?
  }

  /** Timeline timestamps never decrease. */
  ghost predicate TimelineOrdered(tl: seq<TimelineEntry>) {
    forall i, j :: 0 <= i < j < |tl| ==> tl[i].timestamp <= tl[j].timestamp
  }

  /** No timeline entry is later than `now`. */
  ghost predicate StampedBy(tl: seq<TimelineEntry>, now: Millis) {
    forall i :: 0 <= i < |tl| ==> tl[i].timestamp <= now
  }

  /** The relation between an order's fields that the claim / pickup / deliver
      handlers maintain: a partner is recorded exactly when the status is past
      the claim, the sub-status matches the status, pickup and delivery times are
      stamped once those statuses are reached, and the timeline is ordered and
      not later than the last update. */
  ghost predicate Consistent(o: DeliveryOrder) {
    && (Claimed(o.orderStatus) ==> o.deliveryPartnerId.Some?)
    && (BeforeClaim(o.orderStatus) ==> o.deliveryPartnerId.None?)
    && (o.orderStatus == OrderStatus.Assigned ==> o.deliveryStatus == DeliveryStatus.Assigned)
    && (o.orderStatus == OrderStatus.PickedUp ==>
          o.deliveryStatus == DeliveryStatus.PickedUp && o.actualPickupTime.Some?)
    && (o.orderStatus == OrderStatus.Delivered ==>
          o.deliveryStatus == DeliveryStatus.Delivered && o.actualDeliveryTime.Some?)
    && TimelineOrdered(o.timeline)
    && StampedBy(o.timeline, o.updatedAt)
  }

  /** The document the ordering subsystem creates, with the schema defaults
      for every field it does not supply. */
  function NewOrder(orderId: string, customerId: nat, restaurantId: nat, deliveryFee: real,
                    distanceFromRestaurant: Option<real>, distanceToCustomer: Option<real>,
                    now: Millis): (r: DeliveryOrder)
    ensures r.orderStatus == Pending && r.deliveryStatus == NotAssigned
    ensures r.deliveryPartnerId.None? && r.deliveryEarnings == NoEarnings
    ensures r.timeline == [] && r.actualPickupTime.None? && r.actualDeliveryTime.None?
    ensures Consistent(r) && !Claimable(r)
  {
    DeliveryOrder(orderId, customerId, restaurantId, None, Some(deliveryFee), Pending, NotAssigned, [],
                  NoEarnings, distanceFromRestaurant, distanceToCustomer, None, None, now, now)
  }

  /** `addToTimeline`: appends one entry stamped `now`. */
  function AddToTimeline(o: DeliveryOrder, status: OrderStatus, actor: Actor, notes: string, now: Millis): (r: DeliveryOrder)
    ensures |r.timeline| == |o.timeline| + 1
    ensures r.timeline[..|o.timeline|] == o.timeline
    ensures r.timeline[|o.timeline|] == TimelineEntry(status, actor, notes, now)
    ensures r.(timeline := o.timeline) == o
  {
    o.(timeline := o.timeline + [TimelineEntry(status, actor, notes, now)])
  }

  /** `updateStatus`: moves the order to `s` whatever its current status (the
      method checks nothing; legality lives in its callers' guards), records
      the move on the timeline, derives the delivery sub-status and stamps the
      pickup or delivery time on the matching statuses. */
  function UpdateStatus(o: DeliveryOrder, s: OrderStatus, actor: Actor, notes: string, now: Millis): (r: DeliveryOrder)
    ensures r.orderStatus == s && r.updatedAt == now
    ensures |r.timeline| == |o.timeline| + 1
    ensures r.timeline[..|o.timeline|] == o.timeline
    ensures r.timeline[|o.timeline|] == TimelineEntry(s, actor, notes, now)
    ensures s == OrderStatus.Assigned ==> r.deliveryStatus == DeliveryStatus.Assigned
    ensures s == OrderStatus.PickedUp ==> r.deliveryStatus == DeliveryStatus.PickedUp
    ensures s == OutForDelivery ==> r.deliveryStatus == HeadingToCustomer
    ensures s == OrderStatus.Delivered ==> r.deliveryStatus == DeliveryStatus.Delivered
    ensures !Claimed(s) ==> r.deliveryStatus == o.deliveryStatus
    ensures r.actualPickupTime == if s == OrderStatus.PickedUp then Some(now) else o.actualPickupTime
    ensures r.actualDeliveryTime == if s == OrderStatus.Delivered then Some(now) else o.actualDeliveryTime
    ensures r.deliveryPartnerId == o.deliveryPartnerId && r.deliveryEarnings == o.deliveryEarnings
    ensures r.orderId == o.orderId && r.customerId == o.customerId && r.restaurantId == o.restaurantId
    ensures r.createdAt == o.createdAt && r.deliveryFee == o.deliveryFee
    ensures r.distanceFromRestaurant == o.distanceFromRestaurant && r.distanceToCustomer == o.distanceToCustomer
  {
    var o1 := AddToTimeline(o.(orderStatus := s), s, actor, notes, now).(updatedAt := now);
    match s
    case Assigned => o1.(deliveryStatus := DeliveryStatus.Assigned)
    case PickedUp => o1.(deliveryStatus := DeliveryStatus.PickedUp, actualPickupTime := Some(now))
    case OutForDelivery => o1.(deliveryStatus := HeadingToCustomer)
    case Delivered => o1.(deliveryStatus := DeliveryStatus.Delivered, actualDeliveryTime := Some(now))
    case _ => o1
  }

  /** The `deliveryDuration` virtual: whole minutes from pickup to delivery,
      rounded as `Math.round` does, or `null` unless both times are set. */
  function DeliveryDuration(o: DeliveryOrder): (r: Option<int>)
    ensures r.Some? <==> o.actualPickupTime.Some? && o.actualDeliveryTime.Some?
    ensures r.Some? ==>
      var elapsed := o.actualDeliveryTime.value - o.actualPickupTime.value;
      r.value * 60000 - 30000 <= elapsed < r.value * 60000 + 30000
    ensures r.Some? && o.actualPickupTime.value <= o.actualDeliveryTime.value ==> r.value >= 0
  {
    if o.actualDeliveryTime.Some? && o.actualPickupTime.Some? then
      var elapsed := o.actualDeliveryTime.value - o.actualPickupTime.value;
      RoundMinutes(elapsed);
      Some(Round(elapsed as real / 60000.0))
    else
      None
  }

  /** Rounding a millisecond count to minutes lands within half a minute. */
  lemma RoundMinutes(elapsed: int)
    ensures var m := Round(elapsed as real / 60000.0);
      m * 60000 - 30000 <= elapsed < m * 60000 + 30000
  {
    var x := elapsed as real / 60000.0;
    var m := Round(x);
    assert x * 60000.0 == elapsed as real;
    assert x - 0.5 < m as real <= x + 0.5;
    assert (x - 0.5) * 60000.0 < (m as real) * 60000.0;
    assert (m as real) * 60000.0 <= (x + 0.5) * 60000.0;
    assert (m * 60000) as real == (m as real) * 60000.0;
    assert ((m * 60000 - 30000) as real) <= elapsed as real;
    assert (elapsed as real) < (m * 60000 + 30000) as real;
  }

  /** `findAvailableOrders`: the claimable orders that the store's geospatial
      filter `near` keeps (restaurant within the radius of the point), oldest
      first. */
  function FindAvailableOrders(docs: seq<DeliveryOrder>, near: DeliveryOrder -> bool): (r: seq<DeliveryOrder>)
    ensures forall i :: 0 <= i < |r| ==> Claimable(r[i]) && near(r[i])
    ensures forall i :: 0 <= i < |docs| && Claimable(docs[i]) && near(docs[i]) ==> docs[i] in r
    ensures forall i, j :: 0 <= i < j < |r| ==> r[i].createdAt <= r[j].createdAt
    ensures multiset(r) <= multiset(docs)
  {
    var keep := (o: DeliveryOrder) => Claimable(o) && near(o);
    var key := (o: DeliveryOrder) => o.createdAt as real;
    var matches := Filter(docs, keep);
    var r := SortBy(matches, key);
    forall i | 0 <= i < |r| ensures Claimable(r[i]) && near(r[i]) {
      assert r[i] in multiset(matches);
      assert r[i] in matches;
    }
    forall i | 0 <= i < |docs| && keep(docs[i]) ensures docs[i] in r {
      assert docs[i] in multiset(matches);
      assert docs[i] in multiset(r);
    }
    forall i, j | 0 <= i < j < |r| ensures r[i].createdAt <= r[j].createdAt {
      assert key(r[i]) <= key(r[j]);
    }
    r
  }

  /** The orders of one partner, newest first, restricted to one status when
      a status is given. */
  predicate OwnedWith(o: DeliveryOrder, partner: PartnerId, status: Option<OrderStatus>) {
    o.deliveryPartnerId == Some(partner) && (status.None? || o.orderStatus == status.value)
  }

  /** `findByDeliveryPartner`. */
  function FindByDeliveryPartner(docs: seq<DeliveryOrder>, partner: PartnerId, status: Option<OrderStatus>): (r: seq<DeliveryOrder>)
    ensures forall i :: 0 <= i < |r| ==> OwnedWith(r[i], partner, status)
    ensures forall i :: 0 <= i < |docs| && OwnedWith(docs[i], partner, status) ==> docs[i] in r
    ensures forall i, j :: 0 <= i < j < |r| ==> r[i].createdAt >= r[j].createdAt
    ensures multiset(r) <= multiset(docs)
  {
    var keep := (o: DeliveryOrder) => OwnedWith(o, partner, status);
    var key := (o: DeliveryOrder) => -(o.createdAt as real);
    var matches := Filter(docs, keep);
    var r := SortBy(matches, key);
    forall i | 0 <= i < |r| ensures OwnedWith(r[i], partner, status) {
      assert r[i] in multiset(matches);
      assert r[i] in matches;
    }
    forall i, j | 0 <= i < j < |r| ensures r[i].createdAt >= r[j].createdAt {
      assert key(r[i]) <= key(r[j]);
    }
    forall i | 0 <= i < |docs| && keep(docs[i]) ensures docs[i] in r {
      assert docs[i] in multiset(matches);
      assert docs[i] in multiset(r);
    }
    r
  }

  /** One requested status change, at time `at`. */
  datatype Step = Step(status: OrderStatus, actor: Actor, notes: string, at: Millis)

  /** Applies `UpdateStatus` once per step, in order. */
  function ApplySteps(o: DeliveryOrder, steps: seq<Step>): DeliveryOrder
    decreases |steps|
  {
    if |steps| == 0 then o
    else ApplySteps(UpdateStatus(o, steps[0].status, steps[0].actor, steps[0].notes, steps[0].at), steps[1..])
  }

  /** Steps whose clock readings never go backwards and are not earlier than `t`. */
  ghost predicate ClockFrom(steps: seq<Step>, t: Millis) {
    && (forall i :: 0 <= i < |steps| ==> t <= steps[i].at)
    && (forall i, j :: 0 <= i < j < |steps| ==> steps[i].at <= steps[j].at)
  }

  /** One status update at a time not earlier than any entry keeps the
      timeline ordered and stamped no later than that time. */
  lemma UpdateStatusKeepsTimelineOrdered(o: DeliveryOrder, s: OrderStatus, actor: Actor, notes: string, now: Millis)
    requires TimelineOrdered(o.timeline) && StampedBy(o.timeline, now)
    ensures var r := UpdateStatus(o, s, actor, notes, now);
      TimelineOrdered(r.timeline) && StampedBy(r.timeline, now)
  {
    var r := UpdateStatus(o, s, actor, notes, now);
    forall i | 0 <= i < |o.timeline| ensures r.timeline[i] == o.timeline[i] {
      assert r.timeline[..|o.timeline|][i] == r.timeline[i];
    }
  }

  /** The timeline is append-only: any run of updates under a clock that
      does not go backwards keeps the old entries, appends one entry per step
      in order, keeps the timestamps in order, and leaves the last status
      written. */
  lemma ApplyStepsTimeline(o: DeliveryOrder, steps: seq<Step>, t: Millis)
    requires TimelineOrdered(o.timeline) && StampedBy(o.timeline, t) && ClockFrom(steps, t)
    ensures var r := ApplySteps(o, steps);
      && |r.timeline| == |o.timeline| + |steps|
      && r.timeline[..|o.timeline|] == o.timeline
      && (forall k :: 0 <= k < |steps| ==>
            r.timeline[|o.timeline| + k] == TimelineEntry(steps[k].status, steps[k].actor, steps[k].notes, steps[k].at))
      && TimelineOrdered(r.timeline)
      && (|steps| > 0 ==> r.orderStatus == steps[|steps| - 1].status)
  {
    ApplyStepsEntries(o, steps);
    ApplyStepsOrdered(o, steps, t);
  }

  /** Each step appends its own entry behind the old ones, and the last
      step's status is the one that stays. */
  lemma {:induction false} ApplyStepsEntries(o: DeliveryOrder, steps: seq<Step>)
    ensures var r := ApplySteps(o, steps);
      && |r.timeline| == |o.timeline| + |steps|
      && r.timeline[..|o.timeline|] == o.timeline
      && (forall k :: 0 <= k < |steps| ==>
            r.timeline[|o.timeline| + k] == TimelineEntry(steps[k].status, steps[k].actor, steps[k].notes, steps[k].at))
      && (|steps| > 0 ==> r.orderStatus == steps[|steps| - 1].status)
    decreases |steps|
  {
    if |steps| > 0 {
      var s := steps[0];
      var o1 := UpdateStatus(o, s.status, s.actor, s.notes, s.at);
      ApplyStepsEntries(o1, steps[1..]);
      var r := ApplySteps(o1, steps[1..]);
      assert r == ApplySteps(o, steps);
      forall k | 0 <= k < |steps|
        ensures r.timeline[|o.timeline| + k] == TimelineEntry(steps[k].status, steps[k].actor, steps[k].notes, steps[k].at)
      {
        if k == 0 {
          assert r.timeline[|o.timeline|] == r.timeline[..|o1.timeline|][|o.timeline|];
        } else {
          assert steps[1..][k - 1] == steps[k];
        }
      }
      PrefixOfPrefix(r.timeline, o1.timeline, |o.timeline|);
    }
  }

  /** Under a clock that does not go backwards the timestamps stay in
      order. */
  lemma {:induction false} ApplyStepsOrdered(o: DeliveryOrder, steps: seq<Step>, t: Millis)
    requires TimelineOrdered(o.timeline) && StampedBy(o.timeline, t) && ClockFrom(steps, t)
    ensures TimelineOrdered(ApplySteps(o, steps).timeline)
    decreases |steps|
  {
    if |steps| > 0 {
      var s := steps[0];
      UpdateStatusKeepsTimelineOrdered(o, s.status, s.actor, s.notes, s.at);
      ClockFromTail(steps);
      ApplyStepsOrdered(UpdateStatus(o, s.status, s.actor, s.notes, s.at), steps[1..], s.at);
    }
  }

  /** The steps after the first start no earlier than the first. */
  lemma ClockFromTail(steps: seq<Step>)
    requires |steps| > 0 && ClockFrom(steps, steps[0].at)
    ensures ClockFrom(steps[1..], steps[0].at)
  {
    forall i | 0 <= i < |steps[1..]| ensures steps[0].at <= steps[1..][i].at {
      assert steps[1..][i] == steps[i + 1];
    }
  }

  /** A prefix of a prefix is a prefix. */
  lemma PrefixOfPrefix<T>(a: seq<T>, b: seq<T>, n: nat)
    requires n <= |b| <= |a| && a[..|b|] == b
    ensures a[..n] == b[..n]
  {
    assert a[..n] == a[..|b|][..n];
  }

  /** `updateStatus` itself guards nothing: applied to a freshly created order
      it writes `delivered` although no partner was ever recorded. */
  lemma UpdateStatusIsUnguarded(id: string, c: nat, rest: nat, fee: real, now: Millis)
    ensures var o := NewOrder(id, c, rest, fee, None, None, now);
      var r := UpdateStatus(o, OrderStatus.Delivered, System, "", now);
      Consistent(o) && r.orderStatus == OrderStatus.Delivered && !Consistent(r)
  {
  }
}

=== FILE: delivery_partner.dfy ===
/**
 The delivery-partner record (models/DeliveryPartner.js): schema defaults, the
 earnings ledger, the delivery counters with the rating sum, the
 average-rating virtual, the location and availability setters and the
 nearby-partner filter.
 */
module DeliveryPartners {
  import opened Common
  import opened Sorting

  /** `earnings`: four running sums that every credited delivery feeds alike. */
  datatype Ledger = Ledger(totalEarnings: real, todayEarnings: real, weeklyEarnings: real, monthlyEarnings: real)

  /** `stats`. `rating` is the sum of the ratings received, `totalRatings` their count. */
  datatype Stats = Stats(totalDeliveries: nat, completedDeliveries: nat, cancelledDeliveries: nat,
                         rating: real, totalRatings: nat)

  /** The fields of a partner that dispatch reads or writes. `coordinates` is
      the GeoJSON array of `currentLocation`, `[longitude, latitude]`; `None`
      stands for a document that has no such array. */
  datatype Partner = Partner(
    id: PartnerId,
    name: string,
    phone: string,
    vehicleType: string,
    vehicleNumber: string,
    isAvailable: bool,
    isVerified: bool,
    isActive: bool,
    coordinates: Option<seq<real>>,
    earnings: Ledger,
    stats: Stats,
    isWorking: bool,
    lastActiveAt: Millis)

  const ZeroLedger := Ledger(0.0, 0.0, 0.0, 0.0)
  const ZeroStats := Stats(0, 0, 0, 0.0, 0)

  /** A registered partner with every schema default: available, active, not
      yet verified, located at `[0, 0]`, nothing earned, nothing delivered. */
  function NewPartner(id: PartnerId, name: string, phone: string, vehicleType: string, vehicleNumber: string,
                      now: Millis): (r: Partner)
    ensures r.isAvailable && r.isActive && !r.isVerified && !r.isWorking
    ensures r.coordinates == Some([0.0, 0.0])
    ensures r.earnings == ZeroLedger && r.stats == ZeroStats
    ensures AverageRating(r.stats) == 0.0
  {
    Partner(id, name, phone, vehicleType, vehicleNumber, true, false, true, Some([0.0, 0.0]),
            ZeroLedger, ZeroStats, false, now)
  }

  /** `addEarnings`: credits `amount` to all four buckets and nothing else. */
  function AddEarnings(p: Partner, amount: real): (r: Partner)
    ensures r.earnings.totalEarnings == p.earnings.totalEarnings + amount
    ensures r.earnings.todayEarnings == p.earnings.todayEarnings + amount
    ensures r.earnings.weeklyEarnings == p.earnings.weeklyEarnings + amount
    ensures r.earnings.monthlyEarnings == p.earnings.monthlyEarnings + amount
    ensures r.(earnings := p.earnings) == p
  {
    var e := p.earnings;
    p.(earnings := Ledger(e.totalEarnings + amount, e.todayEarnings + amount,
                          e.weeklyEarnings + amount, e.monthlyEarnings + amount))
  }

  /** The `type` argument of `updateStats`; any other string counts only
      towards the total. */
  datatype Outcome = CompletedDelivery | CancelledDelivery | OtherDelivery

  /** `updateStats`: one more delivery; a completed one also counts as
      completed and, when a (truthy, so non-zero) rating is given, adds it to
      the rating sum; a cancelled one counts as cancelled. */
  function UpdateStats(p: Partner, kind: Outcome, rating: Option<real>): (r: Partner)
    ensures r.stats.totalDeliveries == p.stats.totalDeliveries + 1
    ensures r.stats.completedDeliveries == p.stats.completedDeliveries + (if kind == CompletedDelivery then 1 else 0)
    ensures r.stats.cancelledDeliveries == p.stats.cancelledDeliveries + (if kind == CancelledDelivery then 1 else 0)
    ensures kind == CompletedDelivery && rating.Some? && rating.value != 0.0 ==>
      r.stats.rating == p.stats.rating + rating.value && r.stats.totalRatings == p.stats.totalRatings + 1
    ensures !(kind == CompletedDelivery && rating.Some? && rating.value != 0.0) ==>
      r.stats.rating == p.stats.rating && r.stats.totalRatings == p.stats.totalRatings
    ensures r.(stats := p.stats) == p
  {
    var s := p.stats.(totalDeliveries := p.stats.totalDeliveries + 1);
    var s' :=
      match kind
      case CompletedDelivery =>
        var c := s.(completedDeliveries := s.completedDeliveries + 1);
        if rating.Some? && rating.value != 0.0 then
          c.(rating := c.rating + rating.value, totalRatings := c.totalRatings + 1)
        else c
      case CancelledDelivery => s.(cancelledDeliveries := s.cancelledDeliveries + 1)
      case OtherDelivery => s;
    p.(stats := s')
  }

  /** The `averageRating` virtual (before `toFixed`): 0 with no ratings,
      otherwise the mean of the ratings received. */
  function AverageRating(s: Stats): (r: real)
    ensures s.totalRatings == 0 ==> r == 0.0
    ensures s.totalRatings > 0 ==> r * (s.totalRatings as real) == s.rating
  {
    if s.totalRatings == 0 then 0.0 else s.rating / s.totalRatings as real
  }

  /** `updateLocation(longitude, latitude)`: stores the GeoJSON pair with the
      longitude first and refreshes `lastActiveAt`. */
  function UpdateLocation(p: Partner, longitude: real, latitude: real, now: Millis): (r: Partner)
    ensures r.coordinates.Some? && |r.coordinates.value| == 2
    ensures r.coordinates.value[0] == longitude && r.coordinates.value[1] == latitude
    ensures r.lastActiveAt == now
    ensures r.(coordinates := p.coordinates, lastActiveAt := p.lastActiveAt) == p
  {
    p.(coordinates := Some([longitude, latitude]), lastActiveAt := now)
  }

  /** `updateAvailability`. */
  function UpdateAvailability(p: Partner, available: bool, now: Millis): (r: Partner)
    ensures r.isAvailable == available && r.lastActiveAt == now
    ensures r.(isAvailable := p.isAvailable, lastActiveAt := p.lastActiveAt) == p
  {
    p.(isAvailable := available, lastActiveAt := now)
  }

  /** Whether a partner may be offered work: the non-geographic half of
      `findNearby`'s filter. */
  predicate Dispatchable(p: Partner) {
    p.isAvailable && p.isActive && p.isVerified
  }

  /** `findNearby`: the dispatchable partners that the store's geospatial
      filter `near` keeps. */
  function FindNearby(partners: seq<Partner>, near: Partner -> bool): (r: seq<Partner>)
    ensures forall i :: 0 <= i < |r| ==> r[i].isAvailable && r[i].isActive && r[i].isVerified && near(r[i])
    ensures forall i :: 0 <= i < |partners| && Dispatchable(partners[i]) && near(partners[i]) ==> partners[i] in r
    ensures multiset(r) <= multiset(partners)
  {
    Filter(partners, (p: Partner) => Dispatchable(p) && near(p))
  }

  /** The bound the schema puts on `stats.rating` (0 to 5). */
  predicate SchemaAcceptsStats(s: Stats) {
    0.0 <= s.rating <= 5.0
  }

  /** `updateStats` adds each rating into `stats.rating`, so two completed
      deliveries rated 3 leave a value the schema's maximum of 5 refuses on
      save. */
  lemma RatingSumOutgrowsSchemaCap(p: Partner)
    requires p.stats == ZeroStats
    ensures SchemaAcceptsStats(p.stats)
    ensures var r := UpdateStats(UpdateStats(p, CompletedDelivery, Some(3.0)), CompletedDelivery, Some(3.0));
      r.stats.rating == 6.0 && !SchemaAcceptsStats(r.stats)
  {
  }

  /** The bound the 1-to-5 rating scale supports: the sum stays within five
      times the number of ratings, so the mean stays within 0 to 5. */
  predicate RatingWithinScale(s: Stats) {
    0.0 <= s.rating <= 5.0 * s.totalRatings as real
  }

  /** Each rating a customer can give lies between 1 and 5, and with such
      ratings the bound on the mean is preserved, and the mean itself lies
      in 0 to 5. */
  lemma UpdateStatsKeepsRatingInScale(p: Partner, kind: Outcome, rating: Option<real>)
    requires RatingWithinScale(p.stats)
    requires rating.Some? ==> 1.0 <= rating.value <= 5.0
    ensures RatingWithinScale(UpdateStats(p, kind, rating).stats)
    ensures 0.0 <= AverageRating(UpdateStats(p, kind, rating).stats) <= 5.0
  {
    var s := UpdateStats(p, kind, rating).stats;
    if s.totalRatings > 0 {
      var a := AverageRating(s);
      var n := s.totalRatings as real;
      assert a * n == s.rating;
    }
  }
}

=== FILE: location_routes.dfy ===
/**
 The location handlers (routes/location.js): reporting a position with its
 validation, reading it back with the "location not set" rule, and setting
 availability directly. The position is stored GeoJSON-style as
 `[longitude, latitude]` and read back in the same order.
 */
module LocationRoutes {
  import opened Common
  import opened DeliveryOrders
  import opened DeliveryPartners
  import PartnerController
  import PartnerRoutes

  /** The body of `POST /`, numbers already parsed; `None` for a field the
      body leaves out. */
  datatype LocationReport = LocationReport(latitude: Option<real>, longitude: Option<real>,
                                           heading: Option<real>, speed: Option<real>, accuracy: Option<real>)

  /** The request validator: latitude and longitude are required and in
      range; heading, speed and accuracy are checked only when present. */
  predicate ValidReport(q: LocationReport) {
    && q.latitude.Some? && -90.0 <= q.latitude.value <= 90.0
    && q.longitude.Some? && -180.0 <= q.longitude.value <= 180.0
    && (q.heading.Some? ==> 0.0 <= q.heading.value <= 360.0)
    && (q.speed.Some? ==> q.speed.value >= 0.0)
    && (q.accuracy.Some? ==> q.accuracy.value >= 0.0)
  }

  /** `POST /`: a valid report is stored through `updateLocation`
      (longitude first); an invalid one changes nothing. */
  function PostLocation(p: Partner, q: LocationReport, now: Millis): (r: Reply<Partner>)
    ensures r.Ok? <==> ValidReport(q)
    ensures !r.Ok? ==> r == Rejected(Invalid)
    ensures r.Ok? ==> r.value == UpdateLocation(p, q.longitude.value, q.latitude.value, now)
  {
    if !ValidReport(q) then Rejected(Invalid)
    else Ok(UpdateLocation(p, q.longitude.value, q.latitude.value, now))
  }

  /** What `GET /` answers. `latitude` is absent when the stored array has
      fewer than two numbers. */
  datatype Position = Position(latitude: Option<real>, longitude: real, lastUpdated: Millis)

  /** Every coordinate is zero (vacuously so for an empty array). */
  predicate AllZero(c: seq<real>) {
    forall i :: 0 <= i < |c| ==> c[i] == 0.0
  }

  /** `GET /`: "location not set" when there is no array or every
      coordinate is zero; otherwise the array read as `[longitude,
      latitude]`. */
  function GetLocation(p: Partner): (r: Reply<Position>)
    ensures r.Ok? <==> p.coordinates.Some? && !AllZero(p.coordinates.value)
    ensures !r.Ok? ==> r == NotFound
    ensures r.Ok? ==>
      && r.value.longitude == p.coordinates.value[0]
      && r.value.latitude == (if |p.coordinates.value| > 1 then Some(p.coordinates.value[1]) else None)
      && r.value.lastUpdated == p.lastActiveAt
  {
    if p.coordinates.None? || AllZero(p.coordinates.value) then NotFound
    else
      var c := p.coordinates.value;
      Ok(Position(if |c| > 1 then Some(c[1]) else None, c[0], p.lastActiveAt))
  }

  /** The storage round trip: after a valid report of a point other than
      (0, 0), reading the location gives back the same latitude and
      longitude and the time of the report; a report of (0, 0) reads back
      as "location not set". */
  lemma PostThenGet(p: Partner, q: LocationReport, now: Millis)
    requires ValidReport(q)
    ensures var g := GetLocation(PostLocation(p, q, now).value);
      if q.latitude.value == 0.0 && q.longitude.value == 0.0 then g == NotFound
      else g == Ok(Position(q.latitude, q.longitude.value, now))
  {
    var c := PostLocation(p, q, now).value.coordinates.value;
    if !(q.latitude.value == 0.0 && q.longitude.value == 0.0) {
      assert c[0] != 0.0 || c[1] != 0.0;
    }
  }

  /** A partner who has never reported a position (the schema default
      `[0, 0]`) has no location to read. */
  lemma NewPartnerHasNoLocation(id: PartnerId, name: string, phone: string, vehicleType: string,
                                vehicleNumber: string, now: Millis)
    ensures GetLocation(NewPartner(id, name, phone, vehicleType, vehicleNumber, now)) == NotFound
  {
  }

  /** `POST /availability`: a boolean sets availability directly; a missing
      one is refused. */
  function PostAvailability(p: Partner, isAvailable: Option<bool>, now: Millis): (r: Reply<Partner>)
    ensures r.Ok? <==> isAvailable.Some?
    ensures !r.Ok? ==> r == Rejected(Invalid)
    ensures r.Ok? ==> r.value.isAvailable == isAvailable.value && r.value.lastActiveAt == now
    ensures r.Ok? ==> r.value.(isAvailable := p.isAvailable, lastActiveAt := p.lastActiveAt) == p
  {
    match isAvailable
    case None => Rejected(Invalid)
    case Some(b) => Ok(UpdateAvailability(p, b, now))
  }

  /** Of the three ways to go offline, only the toggle route with its
      query on `orderStatus` consults active orders: this handler, the
      controller's status change and the toggle route as written (whose
      query never matches) all take a partner who is carrying an order
      offline. */
  lemma OnlyTheCorrectedToggleChecksActiveOrders(docs: seq<DeliveryOrder>, p: Partner, now: Millis)
    requires p.isAvailable && PartnerRoutes.HoldsActiveOrder(docs, p)
    ensures PartnerRoutes.ToggleAvailability(docs, p, now) == Rejected(ActiveOrder)
    ensures var r := PartnerRoutes.ToggleAvailabilityAsWritten(docs, p, now); r.Ok? && !r.value.isAvailable
    ensures var r := PostAvailability(p, Some(false), now); r.Ok? && !r.value.isAvailable
    ensures var r := PartnerController.ToggleStatus(p, "offline", now, true); r.Ok? && !r.value.partner.isAvailable
  {
  }

  /** The two position handlers store a point the same way when both accept
      it, but accept different points: the controller refuses a zero
      coordinate the route accepts, and accepts an out-of-range one the
      route refuses. */
  lemma PositionHandlersDiffer(p: Partner, now: Millis)
    ensures forall lat: real, lng: real ::
      (PostLocation(p, LocationReport(Some(lat), Some(lng), None, None, None), now).Ok? &&
       PartnerController.UpdateLocation(p, Some(lat), Some(lng), now, true).Ok?) ==>
      PostLocation(p, LocationReport(Some(lat), Some(lng), None, None, None), now).value ==
      PartnerController.UpdateLocation(p, Some(lat), Some(lng), now, true).value.partner
    ensures PostLocation(p, LocationReport(Some(0.0), Some(45.0), None, None, None), now).Ok?
    ensures PartnerController.UpdateLocation(p, Some(0.0), Some(45.0), now, true) == Rejected(Invalid)
    ensures PostLocation(p, LocationReport(Some(100.0), Some(45.0), None, None, None), now) == Rejected(Invalid)
    ensures PartnerController.UpdateLocation(p, Some(100.0), Some(45.0), now, true).Ok?
  {
  }
}

=== FILE: order_controller.dfy ===
/**
 The second dispatch implementation (controllers/orderController.js). It works
 on the ordering system's own `orders` collection, whose status is an
 upper-case enum, and has its own flat earnings estimate in real arithmetic.
 Its claim moves an order from READY_FOR_PICKUP straight to
 WITH_DELIVERY_PARTNER; pickup only stamps a time; delivery moves it to
 DELIVERED; and an administrative update may set any of the seven statuses.

 The handlers read the socket server after the writes and outside any inner
 error handling, so when it is not ready the writes are committed but the
 caller gets a 500: `acknowledged` records which of the two happened.
 */
module OrderController {
  import opened Common
  import opened Sorting
  import opened DeliveryPartners

  datatype Status = Pending | Confirmed | Cooking | ReadyForPickup | WithDeliveryPartner | Delivered | Cancelled

  /** The enum's spelling in the collection and in requests. */
  function StatusName(s: Status): string {
    match s
    case Pending => "PENDING"
    case Confirmed => "CONFIRMED"
    case Cooking => "COOKING"
    case ReadyForPickup => "READY_FOR_PICKUP"
    case WithDeliveryPartner => "WITH_DELIVERY_PARTNER"
    case Delivered => "DELIVERED"
    case Cancelled => "CANCELLED"
  }

  /** The `validStatuses.includes(status)` test of the status update, with
      the status it names. */
  function ParseStatus(name: string): (r: Option<Status>)
    ensures r.Some? ==> StatusName(r.value) == name
  {
    if name == "PENDING" then Some(Pending)
    else if name == "CONFIRMED" then Some(Confirmed)
    else if name == "COOKING" then Some(Cooking)
    else if name == "READY_FOR_PICKUP" then Some(ReadyForPickup)
    else if name == "WITH_DELIVERY_PARTNER" then Some(WithDeliveryPartner)
    else if name == "DELIVERED" then Some(Delivered)
    else if name == "CANCELLED" then Some(Cancelled)
    else None
  }

  /** Every status is accepted under its own name, so a name is accepted
      exactly when it is one of the seven. */
  lemma ParseStatusName(s: Status, name: string)
    ensures ParseStatus(StatusName(s)) == Some(s)
    ensures ParseStatus(name).Some? <==> exists t :: StatusName(t) == name
  {
    ParseStatusOfName(s);
    if exists t :: StatusName(t) == name {
      var t :| StatusName(t) == name;
      ParseStatusOfName(t);
    }
  }

  /** Each status's own name parses back to it. */
  lemma ParseStatusOfName(s: Status)
    ensures ParseStatus(StatusName(s)) == Some(s)
  {
    match s
    case Pending =>
    case Confirmed => assert StatusName(s) != "PENDING";
    case Cooking => assert StatusName(s)[0] == 'C' && StatusName(s)[1] == 'O';
    case ReadyForPickup => assert StatusName(s)[0] == 'R';
    case WithDeliveryPartner => assert StatusName(s)[0] == 'W';
    case Delivered => assert StatusName(s)[0] == 'D';
    case Cancelled => assert StatusName(s)[1] == 'A';
  }

  /** `earnings` on an order. */
  datatype Payout = Payout(baseEarning: real, distanceBonus: real, timeBonus: real, totalEarning: real)

  const NoPayout := Payout(0.0, 0.0, 0.0, 0.0)

  /** The fields of an `orders` document the dispatch handlers read or write.
      Coordinates are `[longitude, latitude]` arrays, `None` when absent. */
  datatype Order = Order(
    id: string,
    userId: nat,
    restaurantId: nat,
    orderStatus: Status,
    deliveryPartnerId: Option<PartnerId>,
    deliveryPartnerLocation: Option<seq<real>>,
    restaurantCoords: Option<seq<real>>,
    recipientCoords: Option<seq<real>>,
    distance: Option<real>,
    earnings: Payout,
    estimatedDeliveryTime: Option<Millis>,
    pickupTime: Option<Millis>,
    deliveryTime: Option<Millis>,
    actualDeliveryTime: Option<Millis>,
    createdAt: Millis,
    updatedAt: Millis)

  type Store = map<string, Order>

  /** A distance in kilometres; the great-circle computation is not modelled. */
  type Km = d: real | d >= 0.0

  /** The length of the trip for a partner at the given point: to the
      restaurant, then on to the customer. */
  type TripLength = (seq<real>, Order) -> Km

  /** The partner's point, `[0, 0]` when it has none. */
  function PartnerLocation(p: Partner): (r: seq<real>)
    ensures p.coordinates.Some? ==> r == p.coordinates.value
    ensures p.coordinates.None? ==> r == [0.0, 0.0]
  {
    p.coordinates.GetOr([0.0, 0.0])
  }

  const BaseEarning := 3.0
  const PerKmBonus := 0.5
  const FlatTimeBonus := 1.0
  /** The promised delivery window after a claim: 30 minutes. */
  const DeliveryWindow := 30 * 60000

  /** The flat estimate: 3 plus 0.5 per kilometre plus 1. */
  function Estimate(distance: Km): (e: Payout)
    ensures e.totalEarning == e.baseEarning + e.distanceBonus + e.timeBonus
    ensures e.baseEarning == 3.0 && e.timeBonus == 1.0 && e.distanceBonus * 2.0 == distance
    ensures e.totalEarning >= 4.0
  {
    Payout(BaseEarning, distance * PerKmBonus, FlatTimeBonus, BaseEarning + distance * PerKmBonus + FlatTimeBonus)
  }

  /** A longer trip never pays less, and each extra kilometre pays 0.5. */
  lemma EstimateMonotone(a: Km, b: Km)
    requires a <= b
    ensures Estimate(a).totalEarning <= Estimate(b).totalEarning
    ensures Estimate(b).totalEarning - Estimate(a).totalEarning == (b - a) / 2.0
  {
  }

  // ---------------------------------------------------------------------------
  // Listing

  /** A claimable order: ready for pickup and nobody has it. */
  predicate Open(o: Order) {
    o.orderStatus == ReadyForPickup && o.deliveryPartnerId.None?
  }

  /** The number of orders the listing looks at. */
  const ListingSize := 20

  /** One entry of the listing: the order, its trip length and its estimate. */
  datatype Offer = Offer(order: Order, distance: Km, estimatedEarnings: real)

  function MakeOffer(o: Order, at: seq<real>, trip: TripLength): (r: Offer)
    ensures r.order == o && r.distance == trip(at, o)
    ensures r.estimatedEarnings == Estimate(r.distance).totalEarning
  {
    var d := trip(at, o);
    Offer(o, d, Estimate(d).totalEarning)
  }

  /** The 20 newest open orders, newest first. */
  function NewestOpen(docs: seq<Order>): (r: seq<Order>)
    ensures |r| <= ListingSize
    ensures forall i :: 0 <= i < |r| ==> Open(r[i]) && r[i] in docs
    ensures multiset(r) <= multiset(docs)
    ensures forall i, j :: 0 <= i < j < |r| ==> r[i].createdAt >= r[j].createdAt
    ensures forall k :: 0 <= k < |docs| && Open(docs[k]) && docs[k] !in r ==>
      |r| == ListingSize && forall i :: 0 <= i < |r| ==> r[i].createdAt >= docs[k].createdAt
  {
    var key := (o: Order) => -o.createdAt as real;
    var r := TopBy(docs, (o: Order) => Open(o), key, ListingSize);
    assert forall i, j :: 0 <= i < j < |r| ==> key(r[i]) <= key(r[j]);
    r
  }

  /** `getAvailableOrders`: nothing for an offline partner; otherwise the
      20 newest open orders, each with its trip length from the partner's
      point and its estimate, closest first. */
  function GetAvailableOrders(docs: seq<Order>, p: Partner, trip: TripLength): (r: seq<Offer>)
    ensures !p.isAvailable ==> r == []
    ensures |r| <= ListingSize
    ensures forall i :: 0 <= i < |r| ==>
      && Open(r[i].order) && r[i].order in docs
      && r[i] == MakeOffer(r[i].order, PartnerLocation(p), trip)
    ensures forall i, j :: 0 <= i < j < |r| ==> r[i].distance <= r[j].distance
    ensures p.isAvailable ==> multiset(r) == multiset(Offers(NewestOpen(docs), PartnerLocation(p), trip))
  {
    if !p.isAvailable then []
    else
      var offers := Offers(NewestOpen(docs), PartnerLocation(p), trip);
      var r := SortBy(offers, (e: Offer) => e.distance);
      forall i | 0 <= i < |r|
        ensures Open(r[i].order) && r[i].order in docs && r[i] == MakeOffer(r[i].order, PartnerLocation(p), trip)
      {
        assert r[i] in multiset(offers);
      }
      r
  }

  /** The listing's entries, in the order of `orders`. */
  function Offers(orders: seq<Order>, at: seq<real>, trip: TripLength): (r: seq<Offer>)
    ensures |r| == |orders|
    ensures forall i :: 0 <= i < |r| ==> r[i] == MakeOffer(orders[i], at, trip)
  {
    seq(|orders|, i requires 0 <= i < |orders| => MakeOffer(orders[i], at, trip))
  }

  // ---------------------------------------------------------------------------
  // Transitions

  /** A committed change: the store and partner after it, and whether the
      caller was told of success (a 500 otherwise). */
  datatype Committed = Committed(orders: Store, partner: Partner, acknowledged: bool)

  /** Everything in `after` is as in `before` except the order under `key`. */
  ghost predicate OnlyChanged(before: Store, after: Store, key: string) {
    && after.Keys == before.Keys
    && forall k :: k in before && k != key ==> after[k] == before[k]
  }

  /** `acceptOrder`: refuses an offline partner, then a missing order, then
      one that is not ready for pickup, then one that already has a partner;
      otherwise records the partner, its point, the trip length and the
      estimate, moves the order to WITH_DELIVERY_PARTNER, promises it 30
      minutes from now, and counts one more delivery for the partner. */
  function AcceptOrder(orders: Store, p: Partner, orderId: string, now: Millis, trip: TripLength, ioReady: bool)
    : (r: Reply<Committed>)
    ensures !p.isAvailable ==> r == Rejected(Unavailable)
    ensures p.isAvailable && orderId !in orders ==> r == NotFound
    ensures p.isAvailable && orderId in orders && orders[orderId].orderStatus != ReadyForPickup ==>
      r == Rejected(NotReadyForPickup)
    ensures (p.isAvailable && orderId in orders && orders[orderId].orderStatus == ReadyForPickup &&
             orders[orderId].deliveryPartnerId.Some?) ==> r == Rejected(AlreadyAssigned)
    ensures r.Ok? <==> p.isAvailable && orderId in orders && Open(orders[orderId])
    ensures r.Ok? ==>
      && OnlyChanged(orders, r.value.orders, orderId)
      && r.value.acknowledged == ioReady
      && var before := orders[orderId];
      && var o := r.value.orders[orderId];
      && var d := trip(PartnerLocation(p), before);
      && o == before.(deliveryPartnerId := Some(p.id), orderStatus := WithDeliveryPartner,
                      deliveryPartnerLocation := Some(PartnerLocation(p)), distance := Some(d),
                      earnings := Estimate(d), estimatedDeliveryTime := Some(now + DeliveryWindow), updatedAt := now)
      && r.value.partner == p.(stats := p.stats.(totalDeliveries := p.stats.totalDeliveries + 1))
  {
    if !p.isAvailable then Rejected(Unavailable)
    else if orderId !in orders then NotFound
    else
      var o := orders[orderId];
      if o.orderStatus != ReadyForPickup then Rejected(NotReadyForPickup)
      else if o.deliveryPartnerId.Some? then Rejected(AlreadyAssigned)
      else
        var at := PartnerLocation(p);
        var d := trip(at, o);
        var o' := o.(deliveryPartnerId := Some(p.id), orderStatus := WithDeliveryPartner,
                     deliveryPartnerLocation := Some(at), distance := Some(d), earnings := Estimate(d),
                     estimatedDeliveryTime := Some(now + DeliveryWindow), updatedAt := now);
        var p' := p.(stats := p.stats.(totalDeliveries := p.stats.totalDeliveries + 1));
        Ok(Committed(orders[orderId := o'], p', ioReady))
  }

  /** The lookup of pickup and delivery: an order that is this partner's. */
  predicate Assigned(orders: Store, p: Partner, orderId: string) {
    orderId in orders && orders[orderId].deliveryPartnerId == Some(p.id)
  }

  /** `markOrderPickedUp`: for the partner's own order in
      WITH_DELIVERY_PARTNER, stamps the pickup time; the status stays
      WITH_DELIVERY_PARTNER. */
  function MarkOrderPickedUp(orders: Store, p: Partner, orderId: string, now: Millis, ioReady: bool)
    : (r: Reply<Committed>)
    ensures !Assigned(orders, p, orderId) ==> r == NotFound
    ensures Assigned(orders, p, orderId) && orders[orderId].orderStatus != WithDeliveryPartner ==>
      r == Rejected(NotWithPartner)
    ensures r.Ok? <==> Assigned(orders, p, orderId) && orders[orderId].orderStatus == WithDeliveryPartner
    ensures r.Ok? ==>
      && OnlyChanged(orders, r.value.orders, orderId)
      && r.value.partner == p && r.value.acknowledged == ioReady
      && r.value.orders[orderId] == orders[orderId].(pickupTime := Some(now), updatedAt := now)
  {
    if !Assigned(orders, p, orderId) then NotFound
    else if orders[orderId].orderStatus != WithDeliveryPartner then Rejected(NotWithPartner)
    else Ok(Committed(orders[orderId := orders[orderId].(pickupTime := Some(now), updatedAt := now)], p, ioReady))
  }

  /** `markOrderDelivered`: for the partner's own order in
      WITH_DELIVERY_PARTNER, moves it to DELIVERED with both delivery times
      stamped, credits the order's total to all four earnings buckets and
      counts one more completed delivery. */
  function MarkOrderDelivered(orders: Store, p: Partner, orderId: string, now: Millis, ioReady: bool)
    : (r: Reply<Committed>)
    ensures !Assigned(orders, p, orderId) ==> r == NotFound
    ensures Assigned(orders, p, orderId) && orders[orderId].orderStatus != WithDeliveryPartner ==>
      r == Rejected(NotWithPartner)
    ensures r.Ok? <==> Assigned(orders, p, orderId) && orders[orderId].orderStatus == WithDeliveryPartner
    ensures r.Ok? ==>
      && OnlyChanged(orders, r.value.orders, orderId)
      && r.value.acknowledged == ioReady
      && r.value.orders[orderId] == orders[orderId].(orderStatus := Delivered, deliveryTime := Some(now),
                                                     actualDeliveryTime := Some(now), updatedAt := now)
      && var pay := orders[orderId].earnings.totalEarning;
      && r.value.partner.earnings == Ledger(p.earnings.totalEarnings + pay, p.earnings.todayEarnings + pay,
                                             p.earnings.weeklyEarnings + pay, p.earnings.monthlyEarnings + pay)
      && r.value.partner.stats == p.stats.(completedDeliveries := p.stats.completedDeliveries + 1)
      && r.value.partner.(earnings := p.earnings, stats := p.stats) == p
  {
    if !Assigned(orders, p, orderId) then NotFound
    else if orders[orderId].orderStatus != WithDeliveryPartner then Rejected(NotWithPartner)
    else
      var o := orders[orderId];
      var o' := o.(orderStatus := Delivered, deliveryTime := Some(now), actualDeliveryTime := Some(now), updatedAt := now);
      var p' := AddEarnings(p.(stats := p.stats.(completedDeliveries := p.stats.completedDeliveries + 1)),
                            o.earnings.totalEarning);
      Ok(Committed(orders[orderId := o'], p', ioReady))
  }

  /** The number of orders `getMyOrders` returns. */
  const MyOrdersSize := 50

  /** `getMyOrders`: the partner's 50 newest orders, newest first. */
  function GetMyOrders(docs: seq<Order>, p: Partner): (r: seq<Order>)
    ensures |r| <= MyOrdersSize
    ensures forall i :: 0 <= i < |r| ==> r[i].deliveryPartnerId == Some(p.id) && r[i] in docs
    ensures multiset(r) <= multiset(docs)
    ensures forall i, j :: 0 <= i < j < |r| ==> r[i].createdAt >= r[j].createdAt
    ensures forall k :: 0 <= k < |docs| && docs[k].deliveryPartnerId == Some(p.id) && docs[k] !in r ==>
      |r| == MyOrdersSize && forall i :: 0 <= i < |r| ==> r[i].createdAt >= docs[k].createdAt
  {
    var key := (o: Order) => -o.createdAt as real;
    var r := TopBy(docs, (o: Order) => o.deliveryPartnerId == Some(p.id), key, MyOrdersSize);
    assert forall i, j :: 0 <= i < j < |r| ==> key(r[i]) <= key(r[j]);
    r
  }

  /** The result of the administrative status update. */
  datatype StatusChange = StatusChange(orders: Store, acknowledged: bool)

  /** `updateOrderStatus`: any of the seven names is written to any existing
      order, whatever its current status; an unknown name is refused before
      the order is looked up. */
  function UpdateOrderStatus(orders: Store, orderId: string, status: string, now: Millis, ioReady: bool)
    : (r: Reply<StatusChange>)
    ensures ParseStatus(status).None? ==> r == Rejected(BadStatus)
    ensures ParseStatus(status).Some? && orderId !in orders ==> r == NotFound
    ensures r.Ok? <==> ParseStatus(status).Some? && orderId in orders
    ensures r.Ok? ==>
      && OnlyChanged(orders, r.value.orders, orderId)
      && r.value.acknowledged == ioReady
      && StatusName(r.value.orders[orderId].orderStatus) == status
      && r.value.orders[orderId] == orders[orderId].(orderStatus := r.value.orders[orderId].orderStatus, updatedAt := now)
  {
    match ParseStatus(status)
    case None => Rejected(BadStatus)
    case Some(s) =>
      if orderId !in orders then NotFound
      else Ok(StatusChange(orders[orderId := orders[orderId].(orderStatus := s, updatedAt := now)], ioReady))
  }

  // ---------------------------------------------------------------------------
  // Properties

  /** The shape the claim, pickup and delivery handlers give an order: one
      that is with a partner or delivered has a partner and an estimate
      whose total is the sum of its parts, and a delivered one has both
      delivery times. */
  ghost predicate Tracked(o: Order) {
    && (o.orderStatus == WithDeliveryPartner || o.orderStatus == Delivered ==>
          && o.deliveryPartnerId.Some? && o.distance.Some?
          && o.earnings.totalEarning == o.earnings.baseEarning + o.earnings.distanceBonus + o.earnings.timeBonus)
    && (o.orderStatus == Delivered ==> o.deliveryTime.Some? && o.actualDeliveryTime.Some?)
  }

  ghost predicate AllTracked(orders: Store) {
    forall k :: k in orders ==> Tracked(orders[k])
  }

  /** Claim, pickup and delivery keep every order tracked. */
  lemma PartnerHandlersKeepTracked(orders: Store, p: Partner, orderId: string, now: Millis, trip: TripLength,
                                   ioReady: bool)
    requires AllTracked(orders)
    ensures var r := AcceptOrder(orders, p, orderId, now, trip, ioReady); r.Ok? ==> AllTracked(r.value.orders)
    ensures var r := MarkOrderPickedUp(orders, p, orderId, now, ioReady); r.Ok? ==> AllTracked(r.value.orders)
    ensures var r := MarkOrderDelivered(orders, p, orderId, now, ioReady); r.Ok? ==> AllTracked(r.value.orders)
  {
  }

  /** The administrative update does not: it may put an order nobody claimed
      into WITH_DELIVERY_PARTNER. */
  lemma AdminUpdateBreaksTracked(o: Order, now: Millis)
    requires Open(o)
    ensures AllTracked(map[o.id := o])
    ensures var r := UpdateOrderStatus(map[o.id := o], o.id, "WITH_DELIVERY_PARTNER", now, true);
      r.Ok? && !AllTracked(r.value.orders)
  {
    var r := UpdateOrderStatus(map[o.id := o], o.id, "WITH_DELIVERY_PARTNER", now, true);
    assert ParseStatus("WITH_DELIVERY_PARTNER") == Some(WithDeliveryPartner);
    assert !Tracked(r.value.orders[o.id]);
  }

  /** After a claim, any later claim of the same order is refused as not
      ready for pickup (or the partner is offline), whether or not the
      first caller saw its success. */
  lemma SecondAcceptRefused(orders: Store, p: Partner, q: Partner, orderId: string, now: Millis, later: Millis,
                            trip: TripLength, io1: bool, io2: bool)
    requires AcceptOrder(orders, p, orderId, now, trip, io1).Ok?
    ensures var after := AcceptOrder(orders, p, orderId, now, trip, io1).value.orders;
      AcceptOrder(after, q, orderId, later, trip, io2) ==
        if q.isAvailable then Rejected(NotReadyForPickup) else Rejected(Unavailable)
  {
  }

  /** An administrator putting a claimed order back to READY_FOR_PICKUP does
      not reopen it: the partner stays recorded and a new claim is refused as
      already assigned. */
  lemma ResetDoesNotReopen(orders: Store, p: Partner, q: Partner, orderId: string, t1: Millis, t2: Millis,
                           t3: Millis, trip: TripLength)
    requires q.isAvailable
    requires AcceptOrder(orders, p, orderId, t1, trip, true).Ok?
    ensures var claimed := AcceptOrder(orders, p, orderId, t1, trip, true).value.orders;
      var reset := UpdateOrderStatus(claimed, orderId, "READY_FOR_PICKUP", t2, true);
      && reset.Ok?
      && AcceptOrder(reset.value.orders, q, orderId, t3, trip, true) == Rejected(AlreadyAssigned)
  {
    assert ParseStatus("READY_FOR_PICKUP") == Some(ReadyForPickup);
  }

  /** Pickup does not advance the order, so it can be repeated, and delivery
      does not need it: an order can go from the claim straight to DELIVERED.
      Delivery, by contrast, happens once. */
  lemma PickupIsOptional(orders: Store, p: Partner, orderId: string, t1: Millis, t2: Millis, t3: Millis,
                         trip: TripLength)
    requires AcceptOrder(orders, p, orderId, t1, trip, true).Ok?
    ensures var claimed := AcceptOrder(orders, p, orderId, t1, trip, true);
      var picked := MarkOrderPickedUp(claimed.value.orders, claimed.value.partner, orderId, t2, true);
      && picked.Ok?
      && MarkOrderPickedUp(picked.value.orders, picked.value.partner, orderId, t3, true).Ok?
      && var done := MarkOrderDelivered(claimed.value.orders, claimed.value.partner, orderId, t2, true);
      && done.Ok?
      && MarkOrderDelivered(done.value.orders, done.value.partner, orderId, t3, true) == Rejected(NotWithPartner)
  {
    var claimed := AcceptOrder(orders, p, orderId, t1, trip, true);
    assert claimed.value.partner.id == p.id;
    var done := MarkOrderDelivered(claimed.value.orders, claimed.value.partner, orderId, t2, true);
    assert done.value.partner.id == p.id;
  }

  /** When the socket server is not ready the caller gets a 500, yet the
      order is claimed: a retry of the same claim is refused. */
  lemma FailedReplyStillCommits(orders: Store, p: Partner, orderId: string, t1: Millis, t2: Millis, trip: TripLength)
    requires p.isAvailable && orderId in orders && Open(orders[orderId])
    ensures var r := AcceptOrder(orders, p, orderId, t1, trip, false);
      && r.Ok? && !r.value.acknowledged
      && r.value.orders[orderId].deliveryPartnerId == Some(p.id)
      && AcceptOrder(r.value.orders, r.value.partner, orderId, t2, trip, true) == Rejected(NotReadyForPickup)
  {
  }
}

=== FILE: order_routes.dfy ===
/**
 The partner-facing order handlers (routes/orders.js): listing claimable
 orders, listing one's own orders page by page, and the accept / pickup /
 deliver transitions with the earnings calculation. Each transition is a pure
 function from the store (orders keyed by `orderId`) and the authenticated
 partner to a reply; a refusal or a 404 writes nothing.
 */
module OrderRoutes {
  import opened Common
  import opened Sorting
  import opened DeliveryOrders
  import opened DeliveryPartners

  type Store = map<string, DeliveryOrder>

  // ---------------------------------------------------------------------------
  // Earnings (calculateDeliveryEarnings)

  const BaseFee := 30
  const PerKmRate := 8
  const QuickDeliveryBonus := 10
  const QuickDeliveryMinutes := 30
  /** The distance assumed for a leg that was never measured. */
  const FallbackLegMeters := 2000.0

  /** A leg as `distance || 2000`: a missing or zero distance counts as 2000 m. */
  function LegMeters(d: Option<real>): real {
    if d.Some? && d.value != 0.0 then d.value else FallbackLegMeters
  }

  /** `Math.round(meters / 1000 * 8)`: the per-kilometre pay for both legs. */
  function DistanceBonus(meters: real): (r: int)
    ensures (r as real) * 125.0 - 62.5 <= meters < (r as real) * 125.0 + 62.5
    ensures meters >= 0.0 ==> r >= 0
  {
    var x := meters / 1000.0 * PerKmRate as real;
    assert x * 125.0 == meters;
    Round(x)
  }

  /** The quick-delivery bonus test, `duration && duration < 30`: a missing
      or zero duration earns nothing. */
  predicate QuickDelivery(duration: Option<int>) {
    duration.Some? && duration.value != 0 && duration.value < QuickDeliveryMinutes
  }

  /** `calculateDeliveryEarnings`. */
  function CalculateDeliveryEarnings(o: DeliveryOrder): (e: Earnings)
    ensures e.baseFee == 30 && e.tip == 0
    ensures e.timeBonus == (if QuickDelivery(DeliveryDuration(o)) then 10 else 0)
    ensures var meters := LegMeters(o.distanceFromRestaurant) + LegMeters(o.distanceToCustomer);
      (e.distanceBonus as real) * 125.0 - 62.5 <= meters < (e.distanceBonus as real) * 125.0 + 62.5
    ensures e.total == e.baseFee + e.distanceBonus + e.timeBonus + e.tip
    ensures LegMeters(o.distanceFromRestaurant) >= 0.0 && LegMeters(o.distanceToCustomer) >= 0.0 ==>
      e.distanceBonus >= 0 && e.total >= 30
  {
    var timeBonus := if QuickDelivery(DeliveryDuration(o)) then QuickDeliveryBonus else 0;
    var distanceBonus := DistanceBonus(LegMeters(o.distanceFromRestaurant) + LegMeters(o.distanceToCustomer));
    Earnings(BaseFee, distanceBonus, timeBonus, 0, BaseFee + distanceBonus + timeBonus)
  }

  /** With neither leg measured and no quick-delivery bonus the pay is
      30 + round(4000 / 1000 * 8) = 62. */
  lemma EarningsWithUnmeasuredLegs(o: DeliveryOrder)
    requires o.distanceFromRestaurant.None? || o.distanceFromRestaurant == Some(0.0)
    requires o.distanceToCustomer.None? || o.distanceToCustomer == Some(0.0)
    requires !QuickDelivery(DeliveryDuration(o))
    ensures CalculateDeliveryEarnings(o) == Earnings(30, 32, 0, 0, 62)
  {
    var e := CalculateDeliveryEarnings(o);
    assert LegMeters(o.distanceFromRestaurant) + LegMeters(o.distanceToCustomer) == 4000.0;
    assert e.distanceBonus == 32;
  }

  /** Longer legs never pay less. */
  lemma DistanceBonusMonotone(a: real, b: real)
    requires a <= b
    ensures DistanceBonus(a) <= DistanceBonus(b)
  {
    var x := a / 1000.0 * PerKmRate as real;
    var y := b / 1000.0 * PerKmRate as real;
    assert x <= y;
    assert x + 0.5 <= y + 0.5;
  }

  // ---------------------------------------------------------------------------
  // Notifications

  datatype Channel = CustomerChannel(customer: nat) | RestaurantChannel(restaurant: nat)

  /** One socket emission: addressee, event name and the order's new status. */
  datatype Notice = Notice(to: Channel, event: string, orderId: string, status: OrderStatus)

  /** The emissions of a handler's try/catch block when emission number
      `failsAt` (if any) throws: the ones before it go out, in order, and the
      throw is swallowed. */
  function Publish(notices: seq<Notice>, failsAt: Option<nat>): (r: seq<Notice>)
    ensures r <= notices
    ensures failsAt.None? ==> r == notices
    ensures failsAt.Some? ==> |r| <= failsAt.value
  {
    if failsAt.Some? && failsAt.value < |notices| then notices[..failsAt.value] else notices
  }

  /** The two `order:status_updated`-style emissions a transition makes. */
  function Notices(o: DeliveryOrder, customerEvent: string): seq<Notice> {
    [Notice(CustomerChannel(o.customerId), customerEvent, o.orderId, o.orderStatus),
     Notice(RestaurantChannel(o.restaurantId), "order:status_updated", o.orderId, o.orderStatus)]
  }

  /** A committed transition: the store and partner after it, and the
      notifications that went out. */
  datatype Dispatched = Dispatched(orders: Store, partner: Partner, published: seq<Notice>)

  // ---------------------------------------------------------------------------
  // Transitions

  predicate Owns(p: Partner, o: DeliveryOrder) {
    o.deliveryPartnerId == Some(p.id)
  }

  /** Everything in `after` is as in `before` except the order under `key`. */
  ghost predicate OnlyChanged(before: Store, after: Store, key: string) {
    && after.Keys == before.Keys
    && forall k :: k in before && k != key ==> after[k] == before[k]
  }

  /** `POST /:orderId/accept`: a verified, available partner claims an order
      that is ready for pickup and unclaimed; the partner's delivery count goes
      up by one. */
  function Accept(orders: Store, p: Partner, orderId: string, now: Millis, failsAt: Option<nat>): (r: Reply<Dispatched>)
    ensures !p.isVerified ==> r == Rejected(Unverified)
    ensures p.isVerified && !p.isAvailable ==> r == Rejected(Unavailable)
    ensures r.Ok? <==> p.isVerified && p.isAvailable && orderId in orders && Claimable(orders[orderId])
    ensures r.NotFound? <==> p.isVerified && p.isAvailable && !(orderId in orders && Claimable(orders[orderId]))
    ensures r.Ok? ==>
      && OnlyChanged(orders, r.value.orders, orderId)
      && var o := r.value.orders[orderId];
      && o.orderStatus == OrderStatus.Assigned && o.deliveryStatus == DeliveryStatus.Assigned
      && Owns(p, o) && !Claimable(o)
      && o.timeline == orders[orderId].timeline + [TimelineEntry(OrderStatus.Assigned, DeliveryPartner, "Order accepted by delivery partner", now)]
      && o == UpdateStatus(orders[orderId].(deliveryPartnerId := Some(p.id)), OrderStatus.Assigned, DeliveryPartner,
                           "Order accepted by delivery partner", now)
      && r.value.partner.stats == p.stats.(totalDeliveries := p.stats.totalDeliveries + 1)
      && r.value.partner.(stats := p.stats) == p
  {
    if !p.isVerified then Rejected(Unverified)
    else if !p.isAvailable then Rejected(Unavailable)
    else if orderId !in orders || !Claimable(orders[orderId]) then NotFound
    else
      var claimed := orders[orderId].(deliveryPartnerId := Some(p.id));
      var o := UpdateStatus(claimed, OrderStatus.Assigned, DeliveryPartner, "Order accepted by delivery partner", now);
      var p' := p.(stats := p.stats.(totalDeliveries := p.stats.totalDeliveries + 1));
      Ok(Dispatched(orders[orderId := o], p', Publish(Notices(o, "order:status_updated"), failsAt)))
  }

  /** `POST /:orderId/pickup`: the owner of an assigned order marks it picked
      up; any other order, owner or status is a 404. */
  function Pickup(orders: Store, p: Partner, orderId: string, now: Millis, failsAt: Option<nat>): (r: Reply<Dispatched>)
    ensures r.Ok? <==> orderId in orders && Owns(p, orders[orderId]) && orders[orderId].orderStatus == OrderStatus.Assigned
    ensures !r.Ok? ==> r == NotFound
    ensures r.Ok? ==>
      && OnlyChanged(orders, r.value.orders, orderId)
      && r.value.partner == p
      && var o := r.value.orders[orderId];
      && o.orderStatus == OrderStatus.PickedUp && o.deliveryStatus == DeliveryStatus.PickedUp
      && o.actualPickupTime == Some(now) && Owns(p, o)
      && o.timeline == orders[orderId].timeline + [TimelineEntry(OrderStatus.PickedUp, DeliveryPartner, "Order picked up from restaurant", now)]
      && o == UpdateStatus(orders[orderId], OrderStatus.PickedUp, DeliveryPartner, "Order picked up from restaurant", now)
  {
    if orderId !in orders || !Owns(p, orders[orderId]) || orders[orderId].orderStatus != OrderStatus.Assigned then
      NotFound
    else
      var o := UpdateStatus(orders[orderId], OrderStatus.PickedUp, DeliveryPartner, "Order picked up from restaurant", now);
      Ok(Dispatched(orders[orderId := o], p, Publish(Notices(o, "order:status_updated"), failsAt)))
  }

  /** The longest delivery note the deliver handler accepts. */
  const MaxNoteLength := 500

  /** A body field the validator checks for its type: absent, a string, or
      a value of any other JSON type (`null` included). */
  datatype BodyField = Missing | Text(text: string) | NotText

  /** `optional().isString()`: the field is absent or a string. */
  predicate OptionalString(f: BodyField) {
    !f.NotText?
  }

  /** The deliver handler's validation: proof, signature and note absent
      or strings, and a note of at most 500 characters. */
  predicate DeliverRequestValid(notes: BodyField, deliveryProof: BodyField, customerSignature: BodyField) {
    && OptionalString(deliveryProof) && OptionalString(customerSignature) && OptionalString(notes)
    && (notes.Text? ==> |notes.text| <= MaxNoteLength)
  }

  /** The timeline note of a delivery: the partner's note, or the default when
      none (or an empty one) was sent. */
  function DeliveryNote(notes: BodyField): string {
    if notes.Text? && notes.text != "" then notes.text else "Order delivered successfully"
  }

  /** `POST /:orderId/deliver`: the owner of a picked-up order marks it
      delivered; the pay is computed from the delivered order, stored on it,
      and credited to all four of the partner's earnings buckets, and the
      partner's completed count goes up by one. The proof of delivery and
      the customer's signature are only type-checked and not stored. */
  function Deliver(orders: Store, p: Partner, orderId: string, notes: BodyField,
                   deliveryProof: BodyField, customerSignature: BodyField, now: Millis,
                   failsAt: Option<nat>): (r: Reply<Dispatched>)
    ensures notes.Text? && |notes.text| > MaxNoteLength ==> r == Rejected(Invalid)
    ensures notes.NotText? || deliveryProof.NotText? || customerSignature.NotText? ==> r == Rejected(Invalid)
    ensures r.Ok? <==>
      && DeliverRequestValid(notes, deliveryProof, customerSignature)
      && orderId in orders && Owns(p, orders[orderId]) && orders[orderId].orderStatus == OrderStatus.PickedUp
    ensures DeliverRequestValid(notes, deliveryProof, customerSignature) && !r.Ok? ==> r == NotFound
    ensures r.Ok? ==>
      && OnlyChanged(orders, r.value.orders, orderId)
      && var o := r.value.orders[orderId];
      && var pay := o.deliveryEarnings.total;
      && o.orderStatus == OrderStatus.Delivered && o.deliveryStatus == DeliveryStatus.Delivered
      && o.actualDeliveryTime == Some(now) && Owns(p, o)
      && o.deliveryEarnings == CalculateDeliveryEarnings(o)
      && o.distanceFromRestaurant == orders[orderId].distanceFromRestaurant
      && o.distanceToCustomer == orders[orderId].distanceToCustomer
      && o.actualPickupTime == orders[orderId].actualPickupTime
      && o.(deliveryEarnings := orders[orderId].deliveryEarnings)
         == UpdateStatus(orders[orderId], OrderStatus.Delivered, DeliveryPartner, DeliveryNote(notes), now)
      && o.timeline == orders[orderId].timeline + [TimelineEntry(OrderStatus.Delivered, DeliveryPartner, DeliveryNote(notes), now)]
      && r.value.partner.earnings == Ledger(p.earnings.totalEarnings + pay as real, p.earnings.todayEarnings + pay as real,
                                             p.earnings.weeklyEarnings + pay as real, p.earnings.monthlyEarnings + pay as real)
      && r.value.partner.stats == p.stats.(completedDeliveries := p.stats.completedDeliveries + 1)
      && r.value.partner.(earnings := p.earnings, stats := p.stats) == p
  {
    if !DeliverRequestValid(notes, deliveryProof, customerSignature) then Rejected(Invalid)
    else if orderId !in orders || !Owns(p, orders[orderId]) || orders[orderId].orderStatus != OrderStatus.PickedUp then
      NotFound
    else
      var o := Settle(orders[orderId], DeliveryNote(notes), now);
      var p' := AddEarnings(p.(stats := p.stats.(completedDeliveries := p.stats.completedDeliveries + 1)),
                            o.deliveryEarnings.total as real);
      Ok(Dispatched(orders[orderId := o], p', Publish(Notices(o, "order:delivered"), failsAt)))
  }

  /** The order side of a delivery: marked delivered, with the pay computed
      from the delivered order stored on it. */
  function Settle(o: DeliveryOrder, note: string, now: Millis): (d: DeliveryOrder)
    ensures d.orderStatus == OrderStatus.Delivered && d.deliveryStatus == DeliveryStatus.Delivered
    ensures d.actualDeliveryTime == Some(now) && d.deliveryPartnerId == o.deliveryPartnerId
    ensures d.timeline == o.timeline + [TimelineEntry(OrderStatus.Delivered, DeliveryPartner, note, now)]
    ensures d.deliveryEarnings == CalculateDeliveryEarnings(d)
    ensures d.(deliveryEarnings := o.deliveryEarnings) == UpdateStatus(o, OrderStatus.Delivered, DeliveryPartner, note, now)
  {
    var delivered := UpdateStatus(o, OrderStatus.Delivered, DeliveryPartner, note, now);
    var d := delivered.(deliveryEarnings := CalculateDeliveryEarnings(delivered));
    assert DeliveryDuration(d) == DeliveryDuration(delivered);
    d
  }

  /** `GET /:orderId`: an order is visible only to its partner. */
  function GetOrder(orders: Store, p: Partner, orderId: string): (r: Reply<DeliveryOrder>)
    ensures r.Ok? <==> orderId in orders && Owns(p, orders[orderId])
    ensures r.Ok? ==> r.value == orders[orderId]
    ensures !r.Ok? ==> r == NotFound
  {
    if orderId in orders && Owns(p, orders[orderId]) then Ok(orders[orderId]) else NotFound
  }

  // ---------------------------------------------------------------------------
  // Properties of the transitions

  /** At most one claim: once an accept has succeeded, no later accept of the
      same order by anyone succeeds; a verified, available bidder gets a 404. */
  lemma SecondAcceptFails(orders: Store, p: Partner, q: Partner, orderId: string, now: Millis, later: Millis,
                          f: Option<nat>, g: Option<nat>)
    requires Accept(orders, p, orderId, now, f).Ok?
    ensures var after := Accept(orders, p, orderId, now, f).value.orders;
      && !Accept(after, q, orderId, later, g).Ok?
      && (q.isVerified && q.isAvailable ==> Accept(after, q, orderId, later, g) == NotFound)
  {
  }

  /** Accepts of one order by a queue of bidders, one after another: the
      store at the end and how many of them succeeded. */
  function AcceptEach(orders: Store, bidders: seq<Partner>, orderId: string, now: Millis): (Store, nat)
    decreases |bidders|
  {
    if |bidders| == 0 then (orders, 0)
    else
      match Accept(orders, bidders[0], orderId, now, None)
      case Ok(d) =>
        var (s, n) := AcceptEach(d.orders, bidders[1..], orderId, now);
        (s, n + 1)
      case _ => AcceptEach(orders, bidders[1..], orderId, now)
  }

  /** Whatever the queue of bidders, at most one accept of an order succeeds,
      and none does once the order is no longer claimable. */
  lemma {:induction false} AtMostOneClaim(orders: Store, bidders: seq<Partner>, orderId: string, now: Millis)
    ensures AcceptEach(orders, bidders, orderId, now).1 <= 1
    ensures !(orderId in orders && Claimable(orders[orderId])) ==> AcceptEach(orders, bidders, orderId, now).1 == 0
    ensures AcceptEach(orders, bidders, orderId, now).1 == 0 ==> AcceptEach(orders, bidders, orderId, now).0 == orders
    decreases |bidders|
  {
    if |bidders| > 0 {
      var r := Accept(orders, bidders[0], orderId, now, None);
      AtMostOneClaim(orders, bidders[1..], orderId, now);
      if r.Ok? {
        AtMostOneClaim(r.value.orders, bidders[1..], orderId, now);
      }
    }
  }

  /** Every order in the store satisfies the lifecycle invariant and none was
      last updated after `now`. */
  ghost predicate StoreConsistent(orders: Store, now: Millis) {
    forall k :: k in orders ==> Consistent(orders[k]) && orders[k].updatedAt <= now
  }

  /** A status update at a time not earlier than the order's last update keeps
      its timeline ordered and stamped no later than the update. */
  lemma UpdateKeepsStamps(o: DeliveryOrder, s: OrderStatus, actor: Actor, notes: string, now: Millis)
    requires TimelineOrdered(o.timeline) && StampedBy(o.timeline, o.updatedAt) && o.updatedAt <= now
    ensures var r := UpdateStatus(o, s, actor, notes, now);
      TimelineOrdered(r.timeline) && StampedBy(r.timeline, r.updatedAt)
  {
    assert StampedBy(o.timeline, now);
    UpdateStatusKeepsTimelineOrdered(o, s, actor, notes, now);
  }

  /** Replacing one order by a consistent one keeps the store consistent. */
  lemma ReplaceKeepsStoreConsistent(orders: Store, key: string, o: DeliveryOrder, now: Millis)
    requires StoreConsistent(orders, now) && Consistent(o) && o.updatedAt <= now
    ensures StoreConsistent(orders[key := o], now)
  {
  }

  /** The accept handler keeps every order consistent: the claimed order is
      assigned, carries its partner and has a later timeline entry. */
  lemma AcceptKeepsStoreConsistent(orders: Store, p: Partner, orderId: string, now: Millis, f: Option<nat>)
    requires StoreConsistent(orders, now)
    ensures var r := Accept(orders, p, orderId, now, f); r.Ok? ==> StoreConsistent(r.value.orders, now)
  {
    var r := Accept(orders, p, orderId, now, f);
    if r.Ok? {
      var c := orders[orderId].(deliveryPartnerId := Some(p.id));
      UpdateKeepsStamps(c, OrderStatus.Assigned, DeliveryPartner, "Order accepted by delivery partner", now);
      ReplaceKeepsStoreConsistent(orders, orderId, r.value.orders[orderId], now);
    }
  }

  /** The pickup handler keeps every order consistent. */
  lemma PickupKeepsStoreConsistent(orders: Store, p: Partner, orderId: string, now: Millis, f: Option<nat>)
    requires StoreConsistent(orders, now)
    ensures var r := Pickup(orders, p, orderId, now, f); r.Ok? ==> StoreConsistent(r.value.orders, now)
  {
    var r := Pickup(orders, p, orderId, now, f);
    if r.Ok? {
      UpdateKeepsStamps(orders[orderId], OrderStatus.PickedUp, DeliveryPartner, "Order picked up from restaurant", now);
      ReplaceKeepsStoreConsistent(orders, orderId, r.value.orders[orderId], now);
    }
  }

  /** The deliver handler keeps every order consistent. */
  lemma DeliverKeepsStoreConsistent(orders: Store, p: Partner, orderId: string, notes: BodyField,
                                    proof: BodyField, signature: BodyField, now: Millis, f: Option<nat>)
    requires StoreConsistent(orders, now)
    ensures var r := Deliver(orders, p, orderId, notes, proof, signature, now, f);
      r.Ok? ==> StoreConsistent(r.value.orders, now)
  {
    var r := Deliver(orders, p, orderId, notes, proof, signature, now, f);
    if r.Ok? {
      UpdateKeepsStamps(orders[orderId], OrderStatus.Delivered, DeliveryPartner, DeliveryNote(notes), now);
      ReplaceKeepsStoreConsistent(orders, orderId, r.value.orders[orderId], now);
    }
  }

  /** The whole happy path: an available, verified partner accepts a
      claimable order, picks it up and delivers it; the order ends delivered
      and owned by that partner with three more timeline entries, and the
      partner has one more delivery, one more completion and the order's pay
      in every earnings bucket. */
  lemma HappyPath(orders: Store, p: Partner, orderId: string, t1: Millis, t2: Millis, t3: Millis)
    requires p.isVerified && p.isAvailable
    requires orderId in orders && Claimable(orders[orderId])
    ensures var a := Accept(orders, p, orderId, t1, None);
      && a.Ok?
      && var b := Pickup(a.value.orders, a.value.partner, orderId, t2, None);
      && b.Ok?
      && var c := Deliver(b.value.orders, b.value.partner, orderId, Missing, Missing, Missing, t3, None);
      && c.Ok?
      && var o := c.value.orders[orderId];
      && var pay := o.deliveryEarnings.total as real;
      && o.orderStatus == OrderStatus.Delivered && Owns(p, o)
      && |o.timeline| == |orders[orderId].timeline| + 3
      && o.actualPickupTime == Some(t2) && o.actualDeliveryTime == Some(t3)
      && c.value.partner.stats.totalDeliveries == p.stats.totalDeliveries + 1
      && c.value.partner.stats.completedDeliveries == p.stats.completedDeliveries + 1
      && c.value.partner.earnings.totalEarnings == p.earnings.totalEarnings + pay
      && c.value.partner.earnings.todayEarnings == p.earnings.todayEarnings + pay
  {
    var a := Accept(orders, p, orderId, t1, None);
    var b := Pickup(a.value.orders, a.value.partner, orderId, t2, None);
    assert a.value.partner.id == p.id;
    assert b.Ok?;
    var c := Deliver(b.value.orders, b.value.partner, orderId, Missing, Missing, Missing, t3, None);
    assert c.Ok?;
  }

  /** A notification failure changes neither the reply's kind nor the store
      nor the partner: only how many notifications went out. */
  lemma NotificationFailureIsHarmless(orders: Store, p: Partner, orderId: string, notes: BodyField,
                                      proof: BodyField, signature: BodyField, now: Millis, f: Option<nat>)
    ensures var r := Accept(orders, p, orderId, now, f); var s := Accept(orders, p, orderId, now, None);
      r.Ok? == s.Ok? && (r.Ok? ==> r.value.orders == s.value.orders && r.value.partner == s.value.partner
                                   && r.value.published <= s.value.published)
    ensures var r := Pickup(orders, p, orderId, now, f); var s := Pickup(orders, p, orderId, now, None);
      r.Ok? == s.Ok? && (r.Ok? ==> r.value.orders == s.value.orders && r.value.partner == s.value.partner
                                   && r.value.published <= s.value.published)
    ensures var r := Deliver(orders, p, orderId, notes, proof, signature, now, f);
      var s := Deliver(orders, p, orderId, notes, proof, signature, now, None);
      r.Ok? == s.Ok? && (r.Ok? ==> r.value.orders == s.value.orders && r.value.partner == s.value.partner
                                   && r.value.published <= s.value.published)
  {
    DeliverNotificationFailureIsHarmless(orders, p, orderId, notes, proof, signature, now, f);
  }

  /** The deliver handler's part of `NotificationFailureIsHarmless`. */
  lemma DeliverNotificationFailureIsHarmless(orders: Store, p: Partner, orderId: string, notes: BodyField,
                                             proof: BodyField, signature: BodyField, now: Millis, f: Option<nat>)
    ensures var r := Deliver(orders, p, orderId, notes, proof, signature, now, f);
      var s := Deliver(orders, p, orderId, notes, proof, signature, now, None);
      r.Ok? == s.Ok? && (r.Ok? ==> r.value.orders == s.value.orders && r.value.partner == s.value.partner
                                   && r.value.published <= s.value.published)
  {
  }

  // ---------------------------------------------------------------------------
  // Queries

  /** The query string of `GET /available`, already parsed to numbers. */
  datatype AvailableQuery = AvailableQuery(latitude: Option<real>, longitude: Option<real>,
                                           radius: Option<int>, limit: Option<int>)

  predicate ValidAvailableQuery(q: AvailableQuery) {
    && (q.latitude.Some? ==> -90.0 <= q.latitude.value <= 90.0)
    && (q.longitude.Some? ==> -180.0 <= q.longitude.value <= 180.0)
    && (q.radius.Some? ==> 1000 <= q.radius.value <= 50000)
    && (q.limit.Some? ==> 1 <= q.limit.value <= 50)
  }

  const DefaultRadius := 10000
  const DefaultLimit := 20

  /** The point searched around: the query's `[longitude, latitude]` when it
      has both, else the partner's stored coordinates, else none (no
      geographic restriction). */
  function SearchCenter(q: AvailableQuery, p: Partner): (r: Option<seq<real>>)
    ensures q.latitude.Some? && q.longitude.Some? ==> r == Some([q.longitude.value, q.latitude.value])
    ensures !(q.latitude.Some? && q.longitude.Some?) ==> r == p.coordinates
  {
    if q.latitude.Some? && q.longitude.Some? then Some([q.longitude.value, q.latitude.value])
    else p.coordinates
  }

  /** The store's `$near` test: is the order's restaurant within `radius`
      meters of `center`? The geometry itself is not modelled. */
  type GeoFilter = (seq<real>, int, DeliveryOrder) -> bool

  predicate InSearch(o: DeliveryOrder, center: Option<seq<real>>, radius: int, within: GeoFilter) {
    Claimable(o) && (center.None? || within(center.value, radius, o))
  }

  /** The oldest `limit` of the matches, oldest first. */
  function OldestFirst(docs: seq<DeliveryOrder>, center: Option<seq<real>>, radius: int, within: GeoFilter,
                       limit: nat): (r: seq<DeliveryOrder>)
    ensures |r| <= limit
    ensures forall i :: 0 <= i < |r| ==> InSearch(r[i], center, radius, within) && r[i] in docs
    ensures multiset(r) <= multiset(docs)
    ensures forall i, j :: 0 <= i < j < |r| ==> r[i].createdAt <= r[j].createdAt
    ensures forall k :: 0 <= k < |docs| && InSearch(docs[k], center, radius, within) && docs[k] !in r ==>
      |r| == limit && forall i :: 0 <= i < |r| ==> r[i].createdAt <= docs[k].createdAt
  {
    var keep := (o: DeliveryOrder) => InSearch(o, center, radius, within);
    var key := (o: DeliveryOrder) => o.createdAt as real;
    var r := TopBy(docs, keep, key, limit);
    forall i | 0 <= i < |r| ensures InSearch(r[i], center, radius, within) && r[i] in docs {
      assert keep(r[i]);
    }
    forall i, j | 0 <= i < j < |r| ensures r[i].createdAt <= r[j].createdAt {
      assert key(r[i]) <= key(r[j]);
    }
    forall k | 0 <= k < |docs| && InSearch(docs[k], center, radius, within) && docs[k] !in r
      ensures |r| == limit && forall i :: 0 <= i < |r| ==> r[i].createdAt <= docs[k].createdAt
    {
      assert keep(docs[k]);
      forall i | 0 <= i < |r| ensures r[i].createdAt <= docs[k].createdAt {
        assert key(r[i]) <= key(docs[k]);
      }
    }
    r
  }

  /** `GET /available`: for a verified partner and a valid query, the oldest
      claimable orders near the search center, at most `limit` of them. */
  function ListAvailable(docs: seq<DeliveryOrder>, p: Partner, q: AvailableQuery, within: GeoFilter): (r: Reply<seq<DeliveryOrder>>)
    ensures !p.isVerified ==> r == Rejected(Unverified)
    ensures p.isVerified && !ValidAvailableQuery(q) ==> r == Rejected(Invalid)
    ensures r.Ok? <==> p.isVerified && ValidAvailableQuery(q)
    ensures r.Ok? ==>
      var center := SearchCenter(q, p);
      var radius := q.radius.GetOr(DefaultRadius);
      && |r.value| <= q.limit.GetOr(DefaultLimit)
      && (forall i :: 0 <= i < |r.value| ==> InSearch(r.value[i], center, radius, within))
      && (forall i, j :: 0 <= i < j < |r.value| ==> r.value[i].createdAt <= r.value[j].createdAt)
      && (forall i :: 0 <= i < |r.value| ==> r.value[i] in docs)
      && multiset(r.value) <= multiset(docs)
      && (forall k :: 0 <= k < |docs| && InSearch(docs[k], center, radius, within) && docs[k] !in r.value ==>
            |r.value| == q.limit.GetOr(DefaultLimit)
            && forall i :: 0 <= i < |r.value| ==> r.value[i].createdAt <= docs[k].createdAt)
  {
    if !p.isVerified then Rejected(Unverified)
    else if !ValidAvailableQuery(q) then Rejected(Invalid)
    else
      Ok(OldestFirst(docs, SearchCenter(q, p), q.radius.GetOr(DefaultRadius), within, q.limit.GetOr(DefaultLimit)))
  }

  /** The query string of `GET /my`, already parsed. */
  datatype MyQuery = MyQuery(status: Option<OrderStatus>, limit: Option<int>, page: Option<int>)

  /** The statuses `GET /my` lets a partner filter on. */
  predicate ListableStatus(s: OrderStatus) {
    s == OrderStatus.Assigned || s == OrderStatus.PickedUp || s == OutForDelivery
    || s == OrderStatus.Delivered || s == OrderStatus.Cancelled
  }

  predicate ValidMyQuery(q: MyQuery) {
    && (q.status.Some? ==> ListableStatus(q.status.value))
    && (q.limit.Some? ==> 1 <= q.limit.value <= 100)
    && (q.page.Some? ==> q.page.value >= 1)
  }

  datatype Page = Page(orders: seq<DeliveryOrder>, totalCount: nat, currentPage: nat, totalPages: nat)

  /** `GET /my`: page `page` (from 1) of the partner's orders, newest first,
      `limit` per page, with the total count and the number of pages. */
  function MyOrders(docs: seq<DeliveryOrder>, p: Partner, q: MyQuery): (r: Reply<Page>)
    ensures r.Ok? <==> ValidMyQuery(q)
    ensures !r.Ok? ==> r == Rejected(Invalid)
    ensures r.Ok? ==>
      && r.value.totalCount == |FindByDeliveryPartner(docs, p.id, q.status)|
      && r.value.currentPage == q.page.GetOr(1)
      && PageOf(FindByDeliveryPartner(docs, p.id, q.status), q.limit.GetOr(DefaultLimit), q.page.GetOr(1),
                r.value.orders, r.value.totalPages)
  {
    if !ValidMyQuery(q) then Rejected(Invalid)
    else
      var all := FindByDeliveryPartner(docs, p.id, q.status);
      var (items, pages) := Paginate(all, q.limit.GetOr(DefaultLimit), q.page.GetOr(1));
      Ok(Page(items, |all|, q.page.GetOr(1), pages))
  }

  /** `items` is page `page` of `all` at `limit` per page, and `pages` is the
      number of pages: enough to hold everything, none of them empty, and the
      requested page is non-empty exactly when it is one of them. */
  ghost predicate PageOf<T>(all: seq<T>, limit: int, page: int, items: seq<T>, pages: nat) {
    && limit > 0 && page >= 1
    && |items| <= limit
    && (forall i :: 0 <= i < |items| ==> (page - 1) * limit + i < |all| && items[i] == all[(page - 1) * limit + i])
    && (|items| < limit ==> (page - 1) * limit + |items| >= |all|)
    && pages * limit >= |all|
    && (pages > 0 ==> (pages - 1) * limit < |all|)
    && (page <= pages <==> |items| > 0)
  }

  /** `skip((page - 1) * limit).limit(limit)` together with
      `Math.ceil(total / limit)`. */
  function Paginate<T>(all: seq<T>, limit: nat, page: nat): (r: (seq<T>, nat))
    requires limit > 0 && page >= 1
    ensures PageOf(all, limit, page, r.0, r.1)
  {
    var skip := PageStart(page, limit);
    var pages := CeilDiv(|all|, limit);
    var items := Take(Drop(all, skip), limit);
    PageBounds(|all|, limit, page, pages);
    SliceOf(all, skip, limit);
    (items, pages)
  }

  /** The number of items before page `page`. */
  function PageStart(page: nat, limit: nat): (r: nat)
    requires page >= 1
    ensures r == (page - 1) * limit
  {
    MulMonotone(0, page - 1, limit);
    (page - 1) * limit
  }

  /** `Take(Drop(all, skip), limit)` is the run of `all` starting at `skip`,
      cut short only by the end of `all`. */
  lemma SliceOf<T>(all: seq<T>, skip: nat, limit: nat)
    requires limit > 0
    ensures var items := Take(Drop(all, skip), limit);
      && |items| <= limit
      && (forall i :: 0 <= i < |items| ==> skip + i < |all| && items[i] == all[skip + i])
      && (|items| < limit ==> skip + |items| >= |all|)
      && (skip < |all| <==> |items| > 0)
  {
  }

  /** A page from 1 to the page count starts inside the list; any later page
      starts past its end. */
  lemma PageBounds(total: nat, limit: nat, page: nat, pages: nat)
    requires limit > 0 && page >= 1 && pages == CeilDiv(total, limit)
    ensures page <= pages <==> (page - 1) * limit < total
  {
    if page <= pages {
      MulMonotone(page - 1, pages - 1, limit);
    } else {
      MulMonotone(pages, page - 1, limit);
    }
  }

  lemma MulMonotone(a: nat, b: nat, c: nat)
    requires a <= b
    ensures a * c <= b * c
  {
    assert b * c == a * c + (b - a) * c;
  }
}

=== FILE: partner_controller.dfy ===
/**
 The partner-status handlers of controllers/partnerController.js: going
 online or offline by name, reporting a position, and the earnings and
 statistics views. Like the order controller, they read the socket server
 after saving and outside any inner error handling, so when it is not ready
 the change is saved but the caller gets a 500.
 */
module PartnerController {
  import opened Common
  import opened DeliveryPartners

  /** A saved partner and whether the caller was told of success. */
  datatype Saved = Saved(partner: Partner, acknowledged: bool)

  /** `toggleAvailability`: `online` or `offline` sets availability and the
      working flag alike and refreshes the activity time; any other status
      is refused. Active orders are not consulted. */
  function ToggleStatus(p: Partner, status: string, now: Millis, ioReady: bool): (r: Reply<Saved>)
    ensures r.Ok? <==> status == "online" || status == "offline"
    ensures !r.Ok? ==> r == Rejected(BadStatus)
    ensures r.Ok? ==>
      && r.value.partner.isAvailable == (status == "online")
      && r.value.partner.isWorking == r.value.partner.isAvailable
      && r.value.partner.lastActiveAt == now
      && r.value.partner.(isAvailable := p.isAvailable, isWorking := p.isWorking, lastActiveAt := p.lastActiveAt) == p
      && r.value.acknowledged == ioReady
  {
    if status != "online" && status != "offline" then Rejected(BadStatus)
    else
      var online := status == "online";
      Ok(Saved(p.(isAvailable := online, lastActiveAt := now, isWorking := online), ioReady))
  }

  /** Setting the same status twice leaves the same flags as setting it
      once: only the activity time moves. */
  lemma ToggleStatusIdempotent(p: Partner, status: string, t1: Millis, t2: Millis)
    requires ToggleStatus(p, status, t1, true).Ok?
    ensures var once := ToggleStatus(p, status, t1, true).value.partner;
      var twice := ToggleStatus(once, status, t2, true);
      twice.Ok? && twice.value.partner == once.(lastActiveAt := t2)
  {
  }

  /** JavaScript truthiness of a number from the request body: present and
      not zero. */
  predicate Truthy(x: Option<real>) {
    x.Some? && x.value != 0.0
  }

  /** `updateLocation`: a missing or zero latitude or longitude is refused
      (so is a point on the equator or the prime meridian); any other pair,
      in range or not, is stored as `[longitude, latitude]`. */
  function UpdateLocation(p: Partner, latitude: Option<real>, longitude: Option<real>, now: Millis, ioReady: bool)
    : (r: Reply<Saved>)
    ensures r.Ok? <==> Truthy(latitude) && Truthy(longitude)
    ensures !r.Ok? ==> r == Rejected(Invalid)
    ensures r.Ok? ==>
      && r.value.partner.coordinates == Some([longitude.value, latitude.value])
      && r.value.partner.lastActiveAt == now
      && r.value.partner.(coordinates := p.coordinates, lastActiveAt := p.lastActiveAt) == p
      && r.value.acknowledged == ioReady
  {
    if !Truthy(latitude) || !Truthy(longitude) then Rejected(Invalid)
    else Ok(Saved(DeliveryPartners.UpdateLocation(p, longitude.value, latitude.value, now), ioReady))
  }

  /** The `earnings` object of `getEarnings`. */
  datatype EarningsView = EarningsView(today: real, weekly: real, monthly: real, total: real)

  /** `getEarnings`: the four buckets under their short names, and the
      counters as stored. */
  function GetEarnings(p: Partner): (r: (EarningsView, Stats))
    ensures r.1 == p.stats
    ensures Ledger(r.0.total, r.0.today, r.0.weekly, r.0.monthly) == p.earnings
  {
    (EarningsView(p.earnings.todayEarnings, p.earnings.weeklyEarnings, p.earnings.monthlyEarnings,
                  p.earnings.totalEarnings), p.stats)
  }

  /** Crediting an amount shows up as that amount in each of the four
      reported figures. */
  lemma CreditShowsInEveryBucket(p: Partner, amount: real)
    ensures var before := GetEarnings(p).0;
      var after := GetEarnings(AddEarnings(p, amount)).0;
      && after.today == before.today + amount && after.weekly == before.weekly + amount
      && after.monthly == before.monthly + amount && after.total == before.total + amount
  {
  }

  /** The `stats` object of `getStats`. */
  datatype StatsView = StatsView(totalDeliveries: nat, completedDeliveries: nat, cancelledDeliveries: nat,
                                 rating: real, totalRatings: nat, averageRating: real)

  /** `getStats`: the counters as stored and the mean rating, 0 before the
      first rating. */
  function GetStats(p: Partner): (r: StatsView)
    ensures Stats(r.totalDeliveries, r.completedDeliveries, r.cancelledDeliveries, r.rating, r.totalRatings) == p.stats
    ensures p.stats.totalRatings == 0 ==> r.averageRating == 0.0
    ensures p.stats.totalRatings > 0 ==> r.averageRating * (p.stats.totalRatings as real) == p.stats.rating
  {
    var s := p.stats;
    StatsView(s.totalDeliveries, s.completedDeliveries, s.cancelledDeliveries, s.rating, s.totalRatings,
              AverageRating(s))
  }

  /** A completed delivery rated between 1 and 5 keeps the reported mean
      between 0 and 5 when the ratings so far are on that scale. */
  lemma ReportedMeanStaysOnScale(p: Partner, rating: real)
    requires RatingWithinScale(p.stats) && 1.0 <= rating <= 5.0
    ensures var v := GetStats(UpdateStats(p, CompletedDelivery, Some(rating)));
      0.0 <= v.averageRating <= 5.0 && v.totalRatings == p.stats.totalRatings + 1
  {
    UpdateStatsKeepsRatingInScale(p, CompletedDelivery, Some(rating));
  }
}

=== FILE: partner_routes.dfy ===
/**
 The partner dashboard handlers (routes/partner.js): the availability toggle
 that refuses to go offline with an active order, the partial profile update
 with its request validation and the schema's checks on save, and the
 arithmetic of the earnings and statistics dashboards over a given list of
 orders.
 */
module PartnerRoutes {
  import opened Common
  import opened DeliveryOrders
  import opened DeliveryPartners
  import Sorting

  // ---------------------------------------------------------------------------
  // Availability toggle

  /** What a query filter on `path` sees in an order document: the status
      name under `orderStatus`; the order schema has no other status path,
      so any other path holds nothing. */
  function FieldValue(o: DeliveryOrder, path: string): (r: Option<string>)
    ensures r.Some? ==> path == "orderStatus"
  {
    if path == "orderStatus" then Some(StatusName(o.orderStatus)) else None
  }

  /** The status names the active-order query looks for. */
  predicate ActiveName(name: string) {
    name == "assigned" || name == "picked_up"
  }

  /** The active-order query with its status filter on `path`: some order of
      the partner whose value under `path` is an active status name. */
  predicate ActiveOrderQuery(docs: seq<DeliveryOrder>, p: Partner, path: string) {
    exists i :: 0 <= i < |docs| && docs[i].deliveryPartnerId == Some(p.id)
      && FieldValue(docs[i], path).Some? && ActiveName(FieldValue(docs[i], path).value)
  }

  /** The partner holds an order that is assigned or picked up. */
  ghost predicate HoldsActiveOrder(docs: seq<DeliveryOrder>, p: Partner) {
    exists i :: 0 <= i < |docs| && docs[i].deliveryPartnerId == Some(p.id)
      && (docs[i].orderStatus == OrderStatus.Assigned || docs[i].orderStatus == OrderStatus.PickedUp)
  }

  /** Only `assigned` and `picked_up` are active names. */
  lemma ActiveNameOf(s: OrderStatus)
    ensures ActiveName(StatusName(s)) <==> s == OrderStatus.Assigned || s == OrderStatus.PickedUp
  {
  }

  /** Filtering on `orderStatus` finds exactly the active orders; filtering
      on `status`, a path the order schema does not have, finds nothing. */
  lemma ActiveOrderQueryMeaning(docs: seq<DeliveryOrder>, p: Partner)
    ensures ActiveOrderQuery(docs, p, "orderStatus") <==> HoldsActiveOrder(docs, p)
    ensures !ActiveOrderQuery(docs, p, "status")
  {
    if HoldsActiveOrder(docs, p) {
      var i :| 0 <= i < |docs| && docs[i].deliveryPartnerId == Some(p.id)
        && (docs[i].orderStatus == OrderStatus.Assigned || docs[i].orderStatus == OrderStatus.PickedUp);
      ActiveNameOf(docs[i].orderStatus);
    }
    if ActiveOrderQuery(docs, p, "orderStatus") {
      var i :| 0 <= i < |docs| && docs[i].deliveryPartnerId == Some(p.id)
        && FieldValue(docs[i], "orderStatus").Some? && ActiveName(FieldValue(docs[i], "orderStatus").value);
      ActiveNameOf(docs[i].orderStatus);
    }
  }

  /** The toggle itself, given the outcome of the active-order query: an
      available partner with an active order is refused; otherwise
      availability flips. */
  function Toggle(p: Partner, active: bool, now: Millis): (r: Reply<Partner>)
    ensures r.Ok? <==> !(active && p.isAvailable)
    ensures !r.Ok? ==> r == Rejected(ActiveOrder)
    ensures r.Ok? ==> r.value.isAvailable == !p.isAvailable && r.value.lastActiveAt == now
    ensures r.Ok? ==> r.value.(isAvailable := p.isAvailable, lastActiveAt := p.lastActiveAt) == p
  {
    if active && p.isAvailable then Rejected(ActiveOrder)
    else Ok(UpdateAvailability(p, !p.isAvailable, now))
  }

  /** `POST /toggle-availability` as written: its query filters on `status`.
      That path is not in the order schema, so no order matches and the
      toggle is never refused. */
  function ToggleAvailabilityAsWritten(docs: seq<DeliveryOrder>, p: Partner, now: Millis): (r: Reply<Partner>)
    ensures r.Ok? && r.value.isAvailable == !p.isAvailable
    ensures r == Ok(UpdateAvailability(p, !p.isAvailable, now))
  {
    ActiveOrderQueryMeaning(docs, p);
    Toggle(p, ActiveOrderQuery(docs, p, "status"), now)
  }

  /** `POST /toggle-availability` with its query on `orderStatus`: going
      online always succeeds; going offline is refused exactly when the
      partner holds an assigned or picked-up order. */
  function ToggleAvailability(docs: seq<DeliveryOrder>, p: Partner, now: Millis): (r: Reply<Partner>)
    ensures r.Ok? <==> !(p.isAvailable && HoldsActiveOrder(docs, p))
    ensures !r.Ok? ==> r == Rejected(ActiveOrder)
    ensures !p.isAvailable ==> r.Ok? && r.value.isAvailable
    ensures r.Ok? ==> r.value == UpdateAvailability(p, !p.isAvailable, now)
  {
    ActiveOrderQueryMeaning(docs, p);
    Toggle(p, ActiveOrderQuery(docs, p, "orderStatus"), now)
  }

  /** The written query lets a partner who is carrying an order go offline;
      the intended one refuses. */
  lemma OfflineWithActiveOrder(docs: seq<DeliveryOrder>, p: Partner, now: Millis)
    requires p.isAvailable && HoldsActiveOrder(docs, p)
    ensures var r := ToggleAvailabilityAsWritten(docs, p, now); r.Ok? && !r.value.isAvailable
    ensures ToggleAvailability(docs, p, now) == Rejected(ActiveOrder)
  {
  }

  /** Without an active order, toggling twice restores the partner apart
      from the activity time. */
  lemma ToggleTwiceRestores(docs: seq<DeliveryOrder>, p: Partner, t1: Millis, t2: Millis)
    requires !HoldsActiveOrder(docs, p)
    ensures var once := ToggleAvailability(docs, p, t1);
      && once.Ok?
      && var twice := ToggleAvailability(docs, once.value, t2);
      && twice.Ok? && twice.value == p.(lastActiveAt := t2)
  {
    var once := ToggleAvailability(docs, p, t1);
    assert !HoldsActiveOrder(docs, once.value) by {
      assert once.value.id == p.id;
    }
  }

  // ---------------------------------------------------------------------------
  // Profile update

  /** The characters JavaScript's `trim` removes and `\s` matches. */
  predicate IsSpace(c: char) {
    var n := c as int;
    || 9 <= n <= 13 || n == 32 || n == 0xA0 || n == 0x1680 || 0x2000 <= n <= 0x200A
    || n == 0x2028 || n == 0x2029 || n == 0x202F || n == 0x205F || n == 0x3000 || n == 0xFEFF
  }

  /** `s` with its leading white space removed. */
  function TrimStart(s: string): (r: string)
    ensures |r| <= |s| && r == s[|s| - |r|..]
    ensures |r| > 0 ==> !IsSpace(r[0])
    ensures forall i :: 0 <= i < |s| - |r| ==> IsSpace(s[i])
    decreases |s|
  {
    if |s| > 0 && IsSpace(s[0]) then TrimStart(s[1..]) else s
  }

  /** `s` with its trailing white space removed. */
  function TrimEnd(s: string): (r: string)
    ensures |r| <= |s| && r == s[..|r|]
    ensures |r| > 0 ==> !IsSpace(r[|r| - 1])
    ensures forall i :: |r| <= i < |s| ==> IsSpace(s[i])
    decreases |s|
  {
    if |s| > 0 && IsSpace(s[|s| - 1]) then TrimEnd(s[..|s| - 1]) else s
  }

  /** `r` is the slice of `s` starting at `a`, and everything of `s` before
      and after that slice is white space. */
  ghost predicate SliceBetweenSpaces(s: string, r: string, a: int) {
    && 0 <= a <= |s| - |r|
    && r == s[a..a + |r|]
    && (forall k :: 0 <= k < a ==> IsSpace(s[k]))
    && (forall k :: a + |r| <= k < |s| ==> IsSpace(s[k]))
  }

  /** `String.prototype.trim`, which the schema applies to names, phone
      numbers and vehicle numbers when they are assigned. */
  function Trim(s: string): (r: string)
    ensures |r| <= |s|
    ensures exists a :: SliceBetweenSpaces(s, r, a)
    ensures |r| > 0 ==> !IsSpace(r[0]) && !IsSpace(r[|r| - 1])
  {
    var t := TrimStart(s);
    var a := |s| - |t|;
    var r := TrimEnd(t);
    assert SliceBetweenSpaces(s, r, a);
    r
  }

  /** Trimming twice is trimming once, and a string without white space at
      either end is left as it is. */
  lemma {:induction false} TrimIdempotent(s: string)
    ensures Trim(Trim(s)) == Trim(s)
    ensures (|s| == 0 || (!IsSpace(s[0]) && !IsSpace(s[|s| - 1]))) ==> Trim(s) == s
  {
    var t := Trim(s);
    if |t| > 0 {
      assert TrimStart(t) == t;
      assert TrimEnd(t) == t;
    }
    if |s| > 0 && !IsSpace(s[0]) && !IsSpace(s[|s| - 1]) {
      assert TrimStart(s) == s;
      assert TrimEnd(s) == s;
    }
  }

  /** The ASCII part of `toUpperCase`, which the schema applies to vehicle
      numbers. */
  function UpperChar(c: char): (r: char)
    ensures 'a' <= c <= 'z' ==> r as int == c as int - 32
    ensures !('a' <= c <= 'z') ==> r == c
  {
    if 'a' <= c <= 'z' then (c as int - 32) as char else c
  }

  function Upper(s: string): (r: string)
    ensures |r| == |s|
    ensures forall i :: 0 <= i < |s| ==> r[i] == UpperChar(s[i])
  {
    seq(|s|, i requires 0 <= i < |s| => UpperChar(s[i]))
  }

  /** The vehicle types the request validator admits. */
  predicate RequestVehicleType(t: string) {
    t == "bike" || t == "scooter" || t == "bicycle" || t == "car"
  }

  /** The vehicle types the partner schema admits. */
  predicate SchemaVehicleType(t: string) {
    t == "bicycle" || t == "motorcycle" || t == "car" || t == "scooter" || t == "other"
  }

  /** The phone-number pattern of the schema: an optional `+`, then one or
      more digits, white space, `-`, `(` or `)`. */
  predicate PhoneShape(s: string) {
    var body := if |s| > 0 && s[0] == '+' then s[1..] else s;
    |body| > 0 && forall i :: 0 <= i < |body| ==> ('0' <= body[i] <= '9' || IsSpace(body[i]) || body[i] in "-()")
  }

  /** The fields of `PUT /profile`; `None` for a field the body leaves out. */
  datatype ProfileRequest = ProfileRequest(name: Option<string>, phone: Option<string>,
                                           vehicleType: Option<string>, vehicleNumber: Option<string>)

  /** The request validator: each field, when present, must be at least two
      (name) or three (vehicle number) characters, a mobile number, or one of
      the four request vehicle types. */
  predicate ValidProfileRequest(q: ProfileRequest, isMobilePhone: string -> bool) {
    && (q.name.Some? ==> |q.name.value| >= 2)
    && (q.phone.Some? ==> isMobilePhone(q.phone.value))
    && (q.vehicleType.Some? ==> RequestVehicleType(q.vehicleType.value))
    && (q.vehicleNumber.Some? ==> |q.vehicleNumber.value| >= 3)
  }

  /** `if (field)`: present and not empty. */
  predicate Supplied(f: Option<string>) {
    f.Some? && f.value != ""
  }

  /** The schema's checks on the four profile fields when the partner is
      saved. */
  predicate SchemaAcceptsProfile(p: Partner) {
    && 2 <= |p.name| <= 50
    && PhoneShape(p.phone)
    && SchemaVehicleType(p.vehicleType)
    && p.vehicleNumber != ""
  }

  /** The partner with the supplied fields assigned, through the schema's
      trim and upper-case setters. */
  function ApplyProfile(p: Partner, q: ProfileRequest): Partner {
    p.(name := if Supplied(q.name) then Trim(q.name.value) else p.name,
       phone := if Supplied(q.phone) then Trim(q.phone.value) else p.phone,
       vehicleType := if Supplied(q.vehicleType) then q.vehicleType.value else p.vehicleType,
       vehicleNumber := if Supplied(q.vehicleNumber) then Upper(Trim(q.vehicleNumber.value)) else p.vehicleNumber)
  }

  /** `PUT /profile`: a request that fails validation is refused; otherwise
      the supplied fields are assigned and the partner saved, which fails
      when the schema refuses the result. Nothing but the four profile
      fields changes. */
  function UpdateProfile(p: Partner, q: ProfileRequest, isMobilePhone: string -> bool): (r: Reply<Partner>)
    ensures !ValidProfileRequest(q, isMobilePhone) ==> r == Rejected(Invalid)
    ensures ValidProfileRequest(q, isMobilePhone) && !SchemaAcceptsProfile(ApplyProfile(p, q)) ==> r == Rejected(SaveFailed)
    ensures r.Ok? <==> ValidProfileRequest(q, isMobilePhone) && SchemaAcceptsProfile(ApplyProfile(p, q))
    ensures r.Ok? ==> SchemaAcceptsProfile(r.value)
    ensures r.Ok? ==> r.value.name == (if Supplied(q.name) then Trim(q.name.value) else p.name)
    ensures r.Ok? ==> r.value.phone == (if Supplied(q.phone) then Trim(q.phone.value) else p.phone)
    ensures r.Ok? ==> r.value.vehicleType == (if Supplied(q.vehicleType) then q.vehicleType.value else p.vehicleType)
    ensures r.Ok? ==> r.value.vehicleNumber == (if Supplied(q.vehicleNumber) then Upper(Trim(q.vehicleNumber.value)) else p.vehicleNumber)
    ensures r.Ok? ==> r.value == p.(name := r.value.name, phone := r.value.phone, vehicleType := r.value.vehicleType, vehicleNumber := r.value.vehicleNumber)
  {
    if !ValidProfileRequest(q, isMobilePhone) then Rejected(Invalid)
    else
      var p' := ApplyProfile(p, q);
      if !SchemaAcceptsProfile(p') then Rejected(SaveFailed) else Ok(p')
  }

  /** Two requests the validator admits and the schema refuses on save: the
      vehicle type `bike`, which the schema does not list, and a name that is
      long enough only before trimming. */
  lemma ValidatorAdmitsWhatSchemaRefuses(p: Partner, isMobilePhone: string -> bool)
    ensures UpdateProfile(p, ProfileRequest(None, None, Some("bike"), None), isMobilePhone) == Rejected(SaveFailed)
    ensures UpdateProfile(p, ProfileRequest(Some(" a"), None, None, None), isMobilePhone) == Rejected(SaveFailed)
  {
    assert TrimStart(" a") == "a";
    assert Trim(" a") == "a";
  }

  /** A request that supplies nothing saves the partner unchanged when the
      schema accepts it. */
  lemma EmptyProfileRequestIsNoOp(p: Partner, isMobilePhone: string -> bool)
    requires SchemaAcceptsProfile(p)
    ensures UpdateProfile(p, ProfileRequest(None, None, None, None), isMobilePhone) == Ok(p)
  {
  }

  // ---------------------------------------------------------------------------
  // Earnings dashboard

  /** `order.deliveryFee || 0`. */
  function Fee(o: DeliveryOrder): (r: real)
    ensures o.deliveryFee.Some? ==> r == o.deliveryFee.value
    ensures o.deliveryFee.None? ==> r == 0.0
  {
    if o.deliveryFee.Some? && o.deliveryFee.value != 0.0 then o.deliveryFee.value else 0.0
  }

  /** The `reduce` over the orders, left to right. */
  function TotalFees(orders: seq<DeliveryOrder>): real
    decreases |orders|
  {
    if |orders| == 0 then 0.0 else TotalFees(orders[..|orders| - 1]) + Fee(orders[|orders| - 1])
  }

  /** With no negative fee the total is not negative and no order's fee
      exceeds it. */
  lemma {:induction false} TotalFeesBounds(orders: seq<DeliveryOrder>)
    requires forall i :: 0 <= i < |orders| ==> Fee(orders[i]) >= 0.0
    ensures TotalFees(orders) >= 0.0
    ensures forall i :: 0 <= i < |orders| ==> Fee(orders[i]) <= TotalFees(orders)
    decreases |orders|
  {
    if |orders| > 0 {
      var init := orders[..|orders| - 1];
      TotalFeesBounds(init);
      forall i | 0 <= i < |orders| ensures Fee(orders[i]) <= TotalFees(orders) {
        if i < |orders| - 1 {
          assert orders[i] == init[i];
        }
      }
    }
  }

  datatype Summary = Summary(totalEarnings: real, totalOrders: nat, avgEarningPerOrder: real)

  /** The summary of the earnings dashboard: the fee total, the order count,
      and the mean fee, 0 for no orders. */
  function EarningsSummary(orders: seq<DeliveryOrder>): (r: Summary)
    ensures r.totalEarnings == TotalFees(orders) && r.totalOrders == |orders|
    ensures |orders| == 0 ==> r.avgEarningPerOrder == 0.0
    ensures |orders| > 0 ==> r.avgEarningPerOrder * (|orders| as real) == r.totalEarnings
  {
    var total := TotalFees(orders);
    Summary(total, |orders|, if |orders| > 0 then total / |orders| as real else 0.0)
  }

  /** One bar of the daily chart. */
  datatype Day = Day(date: string, earnings: real, orders: nat)

  /** What the chart shows for `date`: the sums over its entries with that
      date (there is at most one). */
  function EarningsOn(chart: seq<Day>, date: string): real
    decreases |chart|
  {
    if |chart| == 0 then 0.0
    else (if chart[0].date == date then chart[0].earnings else 0.0) + EarningsOn(chart[1..], date)
  }

  function OrdersOn(chart: seq<Day>, date: string): nat
    decreases |chart|
  {
    if |chart| == 0 then 0
    else (if chart[0].date == date then chart[0].orders else 0) + OrdersOn(chart[1..], date)
  }

  function ChartEarnings(chart: seq<Day>): real
    decreases |chart|
  {
    if |chart| == 0 then 0.0 else chart[0].earnings + ChartEarnings(chart[1..])
  }

  function ChartOrders(chart: seq<Day>): nat
    decreases |chart|
  {
    if |chart| == 0 then 0 else chart[0].orders + ChartOrders(chart[1..])
  }

  /** The dates the chart has bars for. */
  function Dates(chart: seq<Day>): set<string>
    decreases |chart|
  {
    if |chart| == 0 then {} else {chart[0].date} + Dates(chart[1..])
  }

  /** No date has two bars. */
  predicate DistinctDates(chart: seq<Day>)
    decreases |chart|
  {
    |chart| == 0 || (chart[0].date !in Dates(chart[1..]) && DistinctDates(chart[1..]))
  }

  /** One order counted into the chart: into its date's bar if there is
      one, else into a new bar at the end (object keys keep insertion
      order). */
  function AddToDay(chart: seq<Day>, date: string, fee: real): (r: seq<Day>)
    ensures forall d :: EarningsOn(r, d) == EarningsOn(chart, d) + (if d == date then fee else 0.0)
    ensures forall d :: OrdersOn(r, d) == OrdersOn(chart, d) + (if d == date then 1 else 0)
    ensures ChartEarnings(r) == ChartEarnings(chart) + fee
    ensures ChartOrders(r) == ChartOrders(chart) + 1
    ensures Dates(r) == Dates(chart) + {date}
    ensures DistinctDates(chart) ==> DistinctDates(r)
    decreases |chart|
  {
    if |chart| == 0 then [Day(date, fee, 1)]
    else if chart[0].date == date then
      var r := [chart[0].(earnings := chart[0].earnings + fee, orders := chart[0].orders + 1)] + chart[1..];
      assert r[1..] == chart[1..];
      r
    else
      var rest := AddToDay(chart[1..], date, fee);
      var r := [chart[0]] + rest;
      assert r[1..] == rest;
      r
  }

  /** The daily chart of the earnings dashboard; `day` is the calendar date
      of a timestamp. */
  function DailyBreakdown(orders: seq<DeliveryOrder>, day: Millis -> string): seq<Day>
    decreases |orders|
  {
    if |orders| == 0 then []
    else
      var last := orders[|orders| - 1];
      AddToDay(DailyBreakdown(orders[..|orders| - 1], day), day(last.createdAt), Fee(last))
  }

  /** The orders dated `date` and their fee total. */
  function CountOn(orders: seq<DeliveryOrder>, day: Millis -> string, date: string): nat
    decreases |orders|
  {
    if |orders| == 0 then 0
    else CountOn(orders[..|orders| - 1], day, date) + (if day(orders[|orders| - 1].createdAt) == date then 1 else 0)
  }

  function FeesOn(orders: seq<DeliveryOrder>, day: Millis -> string, date: string): real
    decreases |orders|
  {
    if |orders| == 0 then 0.0
    else FeesOn(orders[..|orders| - 1], day, date) + (if day(orders[|orders| - 1].createdAt) == date then Fee(orders[|orders| - 1]) else 0.0)
  }

  /** The chart has one bar per date, each bar holds exactly its date's
      orders and fees, and the bars add up to the summary's totals. */
  lemma {:induction false} DailyBreakdownMatchesSummary(orders: seq<DeliveryOrder>, day: Millis -> string)
    ensures DistinctDates(DailyBreakdown(orders, day))
    ensures forall d :: OrdersOn(DailyBreakdown(orders, day), d) == CountOn(orders, day, d)
    ensures forall d :: EarningsOn(DailyBreakdown(orders, day), d) == FeesOn(orders, day, d)
    ensures ChartOrders(DailyBreakdown(orders, day)) == EarningsSummary(orders).totalOrders
    ensures ChartEarnings(DailyBreakdown(orders, day)) == EarningsSummary(orders).totalEarnings
    decreases |orders|
  {
    if |orders| > 0 {
      DailyBreakdownMatchesSummary(orders[..|orders| - 1], day);
    }
  }

  // ---------------------------------------------------------------------------
  // Statistics dashboard

  /** How many of the orders have status `s`. */
  function CountStatus(orders: seq<DeliveryOrder>, s: OrderStatus): (r: nat)
    ensures r == |Sorting.Filter(orders, (o: DeliveryOrder) => o.orderStatus == s)|
    decreases |orders|
  {
    if |orders| == 0 then 0
    else (if orders[0].orderStatus == s then 1 else 0) + CountStatus(orders[1..], s)
  }

  /** The count a `$group` stage on `path` reports under the key `name`:
      the orders whose value under `path` is `name`. An order without the
      path falls into the `null` group, never under a status name. */
  function GroupCount(orders: seq<DeliveryOrder>, path: string, name: string): (r: nat)
    ensures r == |Sorting.Filter(orders, (o: DeliveryOrder) => FieldValue(o, path) == Some(name))|
    ensures path != "orderStatus" ==> r == 0
    decreases |orders|
  {
    if |orders| == 0 then 0
    else (if FieldValue(orders[0], path) == Some(name) then 1 else 0) + GroupCount(orders[1..], path, name)
  }

  /** Different statuses have different names. */
  lemma StatusNameInjective(a: OrderStatus, b: OrderStatus)
    ensures StatusName(a) == StatusName(b) ==> a == b
  {
    if StatusName(a) == StatusName(b) {
      assert |StatusName(a)| == |StatusName(b)|;
      assert StatusName(a)[0] == StatusName(b)[0];
      assert StatusName(a)[1] == StatusName(b)[1];
    }
  }

  /** Grouping on `orderStatus` counts, under each status's name, exactly
      the orders with that status. */
  lemma {:induction false} GroupOnOrderStatus(orders: seq<DeliveryOrder>, s: OrderStatus)
    ensures GroupCount(orders, "orderStatus", StatusName(s)) == CountStatus(orders, s)
    decreases |orders|
  {
    if |orders| > 0 {
      StatusNameInjective(orders[0].orderStatus, s);
      GroupOnOrderStatus(orders[1..], s);
    }
  }

  /** The completion rate, in percent: 100 unless there are both delivered
      and cancelled orders, else the delivered share. */
  function CompletionRate(delivered: nat, cancelled: nat): (r: real)
    ensures 0.0 < r <= 100.0
    ensures r == 100.0 <==> delivered == 0 || cancelled == 0
    ensures delivered > 0 ==> r * ((delivered + cancelled) as real) == 100.0 * delivered as real
  {
    if delivered != 0 && delivered + cancelled > 0 then
      var r := (delivered as real / (delivered + cancelled) as real) * 100.0;
      assert r * ((delivered + cancelled) as real) == 100.0 * delivered as real;
      r
    else 100.0
  }

  /** The weekly rate as written: the week's orders are grouped on
      `status`, a path the order schema does not have, so every order lands
      in the `null` group, no count is found under `delivered` or
      `cancelled`, and the rate is always 100. */
  function WeeklyCompletionRateAsWritten(orders: seq<DeliveryOrder>): (r: real)
    ensures r == 100.0
  {
    CompletionRate(GroupCount(orders, "status", "delivered"), GroupCount(orders, "status", "cancelled"))
  }

  /** The weekly rate with the week's orders grouped on `orderStatus`: 100
      exactly when none was delivered or none cancelled, otherwise the
      delivered share. A week of nothing but cancellations also reports
      100. */
  function WeeklyCompletionRate(orders: seq<DeliveryOrder>): (r: real)
    ensures 0.0 < r <= 100.0
    ensures r == 100.0 <==> CountStatus(orders, OrderStatus.Delivered) == 0 || CountStatus(orders, OrderStatus.Cancelled) == 0
    ensures r == CompletionRate(CountStatus(orders, OrderStatus.Delivered), CountStatus(orders, OrderStatus.Cancelled))
  {
    GroupsOnOrderStatus(orders);
    CompletionRate(GroupCount(orders, "orderStatus", "delivered"), GroupCount(orders, "orderStatus", "cancelled"))
  }

  /** The two groups the rate reads, when grouping on `orderStatus`. */
  lemma GroupsOnOrderStatus(orders: seq<DeliveryOrder>)
    ensures GroupCount(orders, "orderStatus", "delivered") == CountStatus(orders, OrderStatus.Delivered)
    ensures GroupCount(orders, "orderStatus", "cancelled") == CountStatus(orders, OrderStatus.Cancelled)
  {
    assert StatusName(OrderStatus.Delivered) == "delivered";
    assert StatusName(OrderStatus.Cancelled) == "cancelled";
    GroupOnOrderStatus(orders, OrderStatus.Delivered);
    GroupOnOrderStatus(orders, OrderStatus.Cancelled);
  }

  /** A week with both deliveries and cancellations reports 100 as written
      and less than 100 once grouped on `orderStatus`; three deliveries and
      one cancellation give 75. */
  lemma WeeklyRateAsWrittenHidesCancellations(orders: seq<DeliveryOrder>)
    requires CountStatus(orders, OrderStatus.Delivered) > 0 && CountStatus(orders, OrderStatus.Cancelled) > 0
    ensures WeeklyCompletionRateAsWritten(orders) == 100.0
    ensures WeeklyCompletionRate(orders) < 100.0
    ensures CountStatus(orders, OrderStatus.Delivered) == 3 && CountStatus(orders, OrderStatus.Cancelled) == 1 ==>
      WeeklyCompletionRate(orders) == 75.0
  {
    GroupsOnOrderStatus(orders);
    ThreeOfFour();
  }

  /** Three deliveries against one cancellation is a rate of 75. */
  lemma ThreeOfFour()
    ensures CompletionRate(3, 1) == 75.0
  {
    assert CompletionRate(3, 1) * 4.0 == 300.0;
  }

  /** One more delivery never lowers the rate, one more cancellation never
      raises it. */
  lemma CompletionRateMonotone(delivered: nat, cancelled: nat)
    requires delivered > 0
    ensures CompletionRate(delivered + 1, cancelled) >= CompletionRate(delivered, cancelled)
    ensures CompletionRate(delivered, cancelled + 1) <= CompletionRate(delivered, cancelled)
  {
    var d := delivered as real;
    var c := cancelled as real;
    assert CompletionRate(delivered, cancelled) == d / (d + c) * 100.0;
    assert CompletionRate(delivered + 1, cancelled) == (d + 1.0) / (d + 1.0 + c) * 100.0;
    assert CompletionRate(delivered, cancelled + 1) == d / (d + c + 1.0) * 100.0;
    assert d * (d + 1.0 + c) <= (d + 1.0) * (d + c);
    RatioLe(d, d + c, d + 1.0, d + 1.0 + c);
    assert d * (d + c) <= d * (d + c + 1.0);
    RatioLe(d, d + c + 1.0, d, d + c);
  }

  /** Comparing two ratios by cross-multiplying. */
  lemma RatioLe(a: real, b: real, c: real, e: real)
    requires b > 0.0 && e > 0.0 && a * e <= c * b
    ensures a / b <= c / e
  {
    var x := a / b;
    var y := c / e;
    assert x * b == a && y * e == c;
    assert x * (b * e) == a * e;
    assert y * (b * e) == c * b;
  }
}

=== FILE: sorting.dfy ===
/**
 The two list operations every query in the dispatch model is built from:
 keeping the documents that match a filter, and a stable sort by a numeric key
 (what the document store's `.sort({ createdAt: 1 })` or `-1` and JavaScript's
 `Array.prototype.sort` with a numeric comparator both do).
 */
module Sorting {

  /** `s` is in non-decreasing order of `key`. */
  ghost predicate SortedBy<T>(s: seq<T>, key: T -> real) {
    forall i, j :: 0 <= i < j < |s| ==> key(s[i]) <= key(s[j])
  }

  /** The elements of `s` that satisfy `keep`, in their original order. */
  function Filter<T>(s: seq<T>, keep: T -> bool): (r: seq<T>)
    ensures forall i :: 0 <= i < |r| ==> keep(r[i])
    ensures forall i :: 0 <= i < |s| && keep(s[i]) ==> s[i] in r
    ensures multiset(r) <= multiset(s)
    ensures |r| <= |s|
    decreases |s|
  {
    if |s| == 0 then []
    else
      var rest := Filter(s[1..], keep);
      assert s == [s[0]] + s[1..];
      if keep(s[0]) then [s[0]] + rest else rest
  }

  /** The smaller of `x`'s key and the first key of `s`. */
  function Least<T>(x: T, s: seq<T>, key: T -> real): real {
    if |s| > 0 && key(s[0]) < key(x) then key(s[0]) else key(x)
  }

  /** Inserts `x` before the first element whose key is not smaller, so that
      `x`, which came first in the input, stays ahead of its equals. */
  function Insert<T>(x: T, s: seq<T>, key: T -> real): (r: seq<T>)
    requires SortedBy(s, key)
    ensures SortedBy(r, key)
    ensures multiset(r) == multiset(s) + multiset{x}
    ensures |r| == |s| + 1
    ensures forall i :: 0 <= i < |r| ==> key(r[i]) >= Least(x, s, key)
    decreases |s|
  {
    if |s| == 0 || key(x) <= key(s[0]) then
      forall i | 0 <= i < |s| ensures key(x) <= key(s[i]) {
        assert key(s[0]) <= key(s[i]);
      }
      ConsSorted(x, s, key);
      [x] + s
    else
      TailSorted(s, key);
      var tail := Insert(x, s[1..], key);
      assert Least(x, s[1..], key) >= key(s[0]);
      forall i | 0 <= i < |tail| ensures key(s[0]) <= key(tail[i]) {
        assert key(tail[i]) >= Least(x, s[1..], key);
      }
      ConsSorted(s[0], tail, key);
      ConsCount(s, tail, x);
      [s[0]] + tail
  }

  /** Putting back the head of `s` in front of its tail with `x` inserted
      gives the elements of `s` and `x`. */
  lemma ConsCount<T>(s: seq<T>, tail: seq<T>, x: T)
    requires |s| > 0 && multiset(tail) == multiset(s[1..]) + multiset{x}
    ensures multiset([s[0]] + tail) == multiset(s) + multiset{x}
  {
    assert s == [s[0]] + s[1..];
  }

  /** Putting an element no larger than any of a sorted list in front keeps
      it sorted. */
  lemma ConsSorted<T>(h: T, t: seq<T>, key: T -> real)
    requires SortedBy(t, key) && forall i :: 0 <= i < |t| ==> key(h) <= key(t[i])
    ensures SortedBy([h] + t, key)
  {
    var r := [h] + t;
    forall i, j | 0 <= i < j < |r| ensures key(r[i]) <= key(r[j]) {
      assert r[j] == t[j - 1];
      if i > 0 {
        assert r[i] == t[i - 1];
      }
    }
  }

  /** The tail of a sorted list is sorted. */
  lemma TailSorted<T>(s: seq<T>, key: T -> real)
    requires |s| > 0 && SortedBy(s, key)
    ensures SortedBy(s[1..], key)
  {
    forall i, j | 0 <= i < j < |s[1..]| ensures key(s[1..][i]) <= key(s[1..][j]) {
      assert s[1..][i] == s[i + 1] && s[1..][j] == s[j + 1];
    }
  }

  /** A stable sort of `s` into non-decreasing order of `key`. */
  function SortBy<T>(s: seq<T>, key: T -> real): (r: seq<T>)
    ensures SortedBy(r, key)
    ensures multiset(r) == multiset(s)
    ensures |r| == |s|
    decreases |s|
  {
    if |s| == 0 then []
    else
      assert s == [s[0]] + s[1..];
      Insert(s[0], SortBy(s[1..], key), key)
  }

  /** The first `limit` elements of `s` that satisfy `keep`, taken in
      non-decreasing order of `key`: a `find(filter).sort(key).limit(n)`.
      A kept element is left out only when the result is full and every
      element of the result sorts no later than it. */
  function TopBy<T>(s: seq<T>, keep: T -> bool, key: T -> real, limit: nat): (r: seq<T>)
    ensures |r| <= limit
    ensures forall i :: 0 <= i < |r| ==> keep(r[i]) && r[i] in s
    ensures SortedBy(r, key)
    ensures multiset(r) <= multiset(s)
    ensures forall k :: 0 <= k < |s| && keep(s[k]) && s[k] !in r ==>
      |r| == limit && forall i :: 0 <= i < |r| ==> key(r[i]) <= key(s[k])
  {
    var kept := Filter(s, keep);
    var sorted := SortBy(kept, key);
    var n := if limit < |sorted| then limit else |sorted|;
    var r := sorted[..n];
    forall i | 0 <= i < |r| ensures keep(r[i]) && r[i] in s {
      assert r[i] in multiset(kept);
      assert r[i] in multiset(s);
    }
    PrefixSorted(sorted, key, n);
    PrefixCount(sorted, n);
    forall k | 0 <= k < |s| && keep(s[k]) && s[k] !in r
      ensures |r| == limit && forall i :: 0 <= i < |r| ==> key(r[i]) <= key(s[k])
    {
      assert s[k] in multiset(sorted);
      LeftOutSortsLater(sorted, key, n, s[k]);
    }
    r
  }

  /** A prefix holds no element more often than the whole list. */
  lemma PrefixCount<T>(s: seq<T>, n: nat)
    requires n <= |s|
    ensures multiset(s[..n]) <= multiset(s)
  {
    assert s == s[..n] + s[n..];
  }

  /** A prefix of a sorted list is sorted. */
  lemma PrefixSorted<T>(s: seq<T>, key: T -> real, n: nat)
    requires n <= |s| && SortedBy(s, key)
    ensures SortedBy(s[..n], key)
  {
    forall i, j | 0 <= i < j < n ensures key(s[..n][i]) <= key(s[..n][j]) {
      assert s[..n][i] == s[i] && s[..n][j] == s[j];
    }
  }

  /** An element of a sorted list that its first `n` elements leave out
      sorts no earlier than any of them, and the list is longer than `n`. */
  lemma LeftOutSortsLater<T>(s: seq<T>, key: T -> real, n: nat, x: T)
    requires n <= |s| && SortedBy(s, key) && x in s && x !in s[..n]
    ensures n < |s| && forall i :: 0 <= i < n ==> key(s[..n][i]) <= key(x)
  {
    forall i | 0 <= i < n ensures key(s[..n][i]) <= key(x) {
      assert s[..n][i] == s[i];
    }
  }
}
